=== FILE: README.md ===
# BIC upload pipeline — a Dafny model

This project models the upload pipeline of the bug-inducing-commit (BIC)
prediction backend, `backend/main.py`. Its `/api/predict` handler runs these steps:

1. It takes an uploaded table of change records.
2. It checks that the eleven required columns are present.
3. It coerces the six numeric metric columns and the two boolean flag columns.
4. It builds a `clean_text` per row from the three text fields. The steps are:
   - lowercase
   - replace URLs with `<URL>`
   - drop digits and ASCII punctuation
   - collapse whitespace
   - drop stop-words
   - lemmatise with a part-of-speech category
5. It min-max scales the eight metric and flag columns into `_norm` values.
6. Through one connection, it writes every row twice: first to `raw_validated_data`, then to `processed_features_data`. The second row carries the id that the raw insert returned.
7. It commits once. Any failure rolls the whole batch back. On success it returns a placeholder prediction for every row.

With the connection factory of `backend/database.py`, the id read of step 6 fails on the first row, so as shipped every non-empty upload that reaches the database ends in the rollback. An upload that fails earlier (a missing column, a cell the text cleaner cannot take, an empty tag) answers its own error before any connection is opened. With that read fixed, a second failure remains. Step 5 stores the integer `0` for a column whose values are all equal, and the driver cannot pass that value to the database. So every one-row upload that reaches the database, and every such batch with a column of equal values, is still rolled back (see "## Findings"). The model has three versions of the handler:
- `Pipeline.Predict` has both corrected;
- `Pipeline.PredictWithIntegerZero` has only the id read corrected;
- `Pipeline.PredictAsShipped` is the handler as shipped.

## Modules

| Module | File | Contents |
|---|---|---|
| `Wrappers` | `wrappers.dfy` | `Option`, `Result` and the HTTP error value (status, detail) |
| `Frames` | `frames.dfy` | Cells (`Num`, `Bool`, `Str`, `Missing` for NaN, `Other`), rows, the parsed table and the module-level column lists |
| `Validation` | `validation.dfy` | The missing-column list, its detail text, and numeric and boolean coercion of one row |
| `TextCleaning` | `text_cleaning.dfy` | `clean_text` as a chain of string functions over ASCII character classes, and the lemmas about its output |
| `CleaningExamples` | `cleaning_examples.dfy` | A concrete input on which `clean_text` is not idempotent |
| `Lemmatize` | `lemmatize.dfy` | The tag-to-category table and the one-lemma-per-token loop (a method proved against a function) |
| `Normalize` | `normalize.dfy` | Min-max scaling of one column over `real`, with its endpoint, bound and order lemmas |
| `Preprocess` | `preprocess.dfy` | `preprocess_text_columns` and `preprocess_numeric` over the validated rows |
| `Store` | `store.dfy` | The two-table store as a class with committed and pending rows, an id sequence, and `commit`/`rollback` |
| `Pipeline` | `pipeline.dfy` | The handler: preparation, the insert loop, the single commit or rollback, and the response |

Some collaborators are foreign and become parameters:
- `word_tokenize`, `nltk.pos_tag` and `WordNetLemmatizer.lemmatize` form the `Nlp` value.
- gensim's stop-word list is a `set<string>`.
- The float parser used by `pd.to_numeric` on text cells is a function `string -> Option<real>`.

The database engine is also abstract. It is described by a map from statement number to error text: those are the statements it refuses. Every other statement succeeds.

### Notes on the code's behaviour

- **Column names.** The text columns are `title`, `description` and `BFC_message`, and the flags are `revd` and `self` (backend/main.py:35-43). The optional label column is `BIC` (backend/main.py:136, 151).
- **Boolean cells.** Only the boolean value `True` becomes 1, and every other cell becomes 0 (backend/main.py:116).
- **Boolean flags are min-max scaled** together with the numeric columns (backend/main.py:86). An all-true flag column therefore stores 0 in every row (`Preprocess.AllTrueFlagIsZero`).
- **Commits.** There is one commit for the whole batch (backend/main.py:153). A refusal anywhere rolls back every row of the batch (backend/main.py:155).
- **Coercion never fails.** `errors='coerce'` turns cells that do not parse into NaN (backend/main.py:112). The raw table keeps the NaN, while the scaled column counts it as 0 (`Preprocess.UnparsedMetricIsNaNThenZero`).
- **The URL placeholder.** Lowercasing comes before URL substitution, and punctuation removal then turns `<URL>` into the letters `URL` (backend/main.py:51-54).
- **`clean_text` is not idempotent.** A second pass lowercases `URL` (`CleaningExamples.CleanTextNotIdempotent`). A second pass can also find a new `http…`/`www…` match once punctuation is gone.

## Model

| member | source | states |
|---|---|---|
| `Validation.MissingColumns` | backend/main.py:106 | A name is in the list exactly when it is required and absent from the header. When the required names are distinct, the list follows their order without repeats. |
| `Validation.ListRepr` | backend/main.py:108 | Python's `repr` of a list of plain names: the names in single quotes, separated by `, `, in brackets. It has no contract of its own. |
| `Validation.MissingColumnsDetail` | backend/main.py:108 | The 400 detail is `Missing columns: ` followed by that list. `Pipeline.Prepare` states that a missing column answers 400 with this detail. |
| `Validation.RequiredColumnsDistinct` | backend/main.py:35-39 | The eleven required names are pairwise distinct, so the missing-column list is ordered and has no repeats. |
| `Validation.CoerceNumeric` | backend/main.py:110-112 | A number is kept, a text cell goes through the parser, and a missing or non-numeric cell becomes NaN (`None`) instead of raising. |
| `Validation.CoerceBoolean` | backend/main.py:114-116 | The value is 1 exactly when the cell is `True`, and 0 otherwise. |
| `Validation.ValidateRow` | backend/main.py:110-116 | A validated row has all six metrics and both flags. The flags are 0 or 1. The label is absent exactly when the header has no `BIC` column. |
| `Validation.ValidateFrame` | backend/main.py:110-116 | Coercion keeps the row count. Every row has the six metrics and the two flags, each flag 0 or 1. Two equal input rows give equal validated rows, so a row depends on itself and the header alone. |
| `TextCleaning.Lower` | backend/main.py:51 | Lowercasing keeps the length, maps each character in place, and leaves no upper-case letter. |
| `TextCleaning.UrlMatch` | backend/main.py:52 | The pattern matches at the start exactly when the text starts with `http` or `www` followed by a non-space character. A match covers more than its prefix, contains no whitespace and runs up to the next whitespace or the end. |
| `TextCleaning.ReplaceUrls` | backend/main.py:52 | Every character of the result comes from the input or from the placeholder `<URL>`. Text in which no match starts is returned unchanged. `ReplaceUrlsKeepsPrefix` fixes the result everywhere else. |
| `TextCleaning.ReplaceUrlsWord` | backend/main.py:52 | At the start of the text, a word starting with `http` or `www` (with at least one more character) and ending at whitespace or the end is replaced as a whole by one placeholder. |
| `TextCleaning.UrlMatchAppend` | backend/main.py:52 | When the text so far ends in whitespace, what follows does not change the match at its start. |
| `TextCleaning.ReplaceUrlsAppend` | backend/main.py:52 | Substitution works word by word. A text that ends in whitespace is substituted on its own, then the text after it on its own, and the results are concatenated. |
| `TextCleaning.ReplaceUrlsWordAnywhere` | backend/main.py:52 | Every whitespace-delimited word starting with `http` or `www` (with at least one more character) becomes one placeholder, wherever it stands in the text. The text before and after it is substituted on its own. |
| `TextCleaning.ReplaceUrlsKeepsPrefix` | backend/main.py:52 | The scan is leftmost. Text in which no match starts is copied as it is, and substitution resumes at the first position where a match starts, even in the middle of a word such as `(http://x`. |
| `TextCleaning.Strip` | backend/main.py:53-54 | Digit and punctuation removal keeps exactly the characters outside the dropped class, and never lengthens the text. `StripAppend` and `StripNothing` pin the order. |
| `TextCleaning.RemoveDigits` | backend/main.py:53 | A character is in the result exactly when it is in the input and is not a digit. |
| `TextCleaning.RemovePunctuation` | backend/main.py:54 | A character is in the result exactly when it is in the input and is not ASCII punctuation. |
| `TextCleaning.Split` | backend/main.py:55 | `str.split()` yields non-empty, whitespace-free tokens, built only from characters of the input. `SplitKeepsText` gives their contents and `SplitAroundWhitespace` says that every whitespace character separates them. |
| `TextCleaning.SplitKeepsText` | backend/main.py:55 | Written one after another, the tokens of `str.split()` are exactly the input with its whitespace removed, so every other character lands in a token, in order. |
| `TextCleaning.Join` | backend/main.py:55 | Every character of a single-space join is a space or comes from a token. |
| `TextCleaning.SplitJoin` | backend/main.py:55-56 | Splitting the single-space join of words gives back the same words, in order. This is the round trip between the whitespace collapse and `remove_stopwords`. |
| `TextCleaning.SplitAroundWhitespace` | backend/main.py:55 | Every whitespace character splits tokens: splitting two texts joined by one space, tab, newline or other whitespace character gives the tokens of the first followed by those of the second. |
| `TextCleaning.JoinSingleSpaced` | backend/main.py:55 | A join of words has no leading or trailing whitespace and single spaces between tokens. It is empty exactly when there are no words. |
| `TextCleaning.KeepNonStop` | backend/main.py:56 | A token survives stop-word removal exactly when it was present and is not a stop-word. |
| `TextCleaning.KeepNonStopAppend` | backend/main.py:56 | The filter works token by token. A list filters as its two parts do, concatenated, so order and repeats are kept. |
| `TextCleaning.KeepNonStopOne` | backend/main.py:56 | A single token is kept, once, exactly when it is not a stop-word. |
| `TextCleaning.RemoveStopwords` | backend/main.py:56 | The result is single-spaced, and its tokens are the non-stop tokens of the input, in order. |
| `TextCleaning.CleanTextIsJoin` | backend/main.py:55-56 | The cleaned text is the single-space join of the non-stop tokens of the stripped text. |
| `TextCleaning.StrippedChars` | backend/main.py:51-54 | Before tokenising, the text has no digit and no punctuation, and its only upper-case letters are those of `URL`. |
| `TextCleaning.CleanTextChars` | backend/main.py:51-57 | The cleaned text has no digit and no punctuation, and its only upper-case letters are those of `URL`. |
| `TextCleaning.CleanTextShape` | backend/main.py:48-57 | The output is single-spaced and holds no stop-word token, no digit and no punctuation. Its only upper-case letters are those of `URL`. Its tokens are exactly the non-stop tokens of the stripped text, in order. |
| `TextCleaning.CleanTextMissing` | backend/main.py:49-50 | A missing value cleans to the empty string. |
| `TextCleaning.CleanText` | backend/main.py:48-57 | The chain of the six steps in order. `CleanTextMissing`, `CleanTextIsJoin`, `CleanTextChars` and `CleanTextShape` state what it yields. |
| `CleaningExamples.CleanTextNotIdempotent` | backend/main.py:51-55 | Cleaning `www.x` gives `URL`, and cleaning that again gives `url`, so the transform is not idempotent. |
| `Lemmatize.Category` | backend/main.py:64-66 | The WordNet category chosen from the first letter of a tag. `CategoryByFirstLetter` states which letter selects which category. |
| `Lemmatize.LemmatizedText` | backend/main.py:59-67 | The reference definition of `lemmatize_text`: one lemma per tagged token, joined by single spaces, or `None` for an empty tag. `LemmatizeText` is proved equal to it, and `OneLemmaPerToken` states its contents. |
| `Lemmatize.CategoryByFirstLetter` | backend/main.py:64-66 | The first letter J, V or R of a tag, in either case, selects adjective, verb or adverb. Every other first character selects noun. |
| `Lemmatize.LemmatizeText` | backend/main.py:59-67 | The loop yields exactly `LemmatizedText`: one lemma per tagged token, in order, joined by single spaces. An empty tag gives the IndexError outcome. |
| `Lemmatize.OneLemmaPerToken` | backend/main.py:60-66 | With a tagger that returns every token, in order, with a non-empty tag, lemmatisation succeeds. It then emits exactly one lemma per token, each under the category of its own tag. |
| `Normalize.MinOf` | backend/main.py:87 | The column minimum is one of the values, and no value is smaller. |
| `Normalize.MaxOf` | backend/main.py:88 | The column maximum is one of the values, and no value is larger. |
| `Normalize.MinMaxNormalize` | backend/main.py:86-92 | Scaling keeps the row count. |
| `Normalize.ConstantIffZeroRange` | backend/main.py:89 | `max - min == 0` exactly when all the values in the column are equal. |
| `Normalize.ConstantColumnIsZero` | backend/main.py:89-90 | A column whose values are all equal (a one-row batch included) scales to 0 in every row. |
| `Normalize.NormalizedInUnitInterval` | backend/main.py:86-92 | Every scaled value lies in [0, 1]. |
| `Normalize.MinimumRowIsZero` | backend/main.py:91-92 | A row holding the column minimum scales to 0. |
| `Normalize.MaximumRowIsOne` | backend/main.py:91-92 | In a column whose values are not all equal, a row holding the maximum scales to 1. |
| `Normalize.RescaledAt` | backend/main.py:91-92 | With a positive range, each value becomes `(v - min) / (max - min)`. |
| `Normalize.NormalizePreservesOrder` | backend/main.py:91-92 | In a column whose values are not all equal, scaled values compare exactly as the inputs do. |
| `Normalize.RescaleMonotone` | backend/main.py:92 | The affine rescaling with a positive range preserves and reflects order. |
| `Normalize.FlagColumn` | backend/main.py:86-92 | A 0/1 column is unchanged by scaling when its values differ. When they are all equal, it becomes all zeros. |
| `Preprocess.JoinedText` | backend/main.py:70 | The join fails exactly when a field is neither text nor missing. Otherwise its tokens are the tokens of the title, the description and the message, in that order, so a missing field adds no token. |
| `Preprocess.CleanTextColumn` | backend/main.py:69-72 | The column exists exactly when every row's text can be built, and then it has one value per row. |
| `Preprocess.CleanTextIsRowLocal` | backend/main.py:69-72 | A row's cleaned text is `lemmatize_text(clean_text(joined))` of that row, and equal rows get equal values in any two batches, unlike the batch-relative `_norm` values. |
| `Preprocess.RowCleanText` | backend/main.py:70-71 | One row's `lemmatize_text(clean_text(joined))`, or `None` when either step raises. `CleanTextIsRowLocal` states that each column value is this for its own row. |
| `Preprocess.FillNa` | backend/main.py:83 | `fillna(0)` on one coerced metric. `MissingCountsAsZero` and `PresentMetricIsKept` state both of its cases. |
| `Preprocess.FlagValue` | backend/main.py:81 | The second boolean cast gives 1 exactly on 1, and 0 otherwise. |
| `Preprocess.Filled` | backend/main.py:80-83 | The filled working column keeps the row count. `MissingCountsAsZero`, `PresentMetricIsKept` and `FlagColumnFilled` give its values. |
| `Preprocess.PreprocessNumeric` | backend/main.py:77-93 | Scaling keeps the row count. Every row gets a `_norm` value for exactly the eight metric and flag columns. |
| `Preprocess.NormColumnIsScaled` | backend/main.py:86-92 | Each `_norm` column is the min-max scaling of that one filled column. |
| `Preprocess.MissingCountsAsZero` | backend/main.py:83 | A NaN metric counts as 0 before scaling. |
| `Preprocess.PresentMetricIsKept` | backend/main.py:83 | A metric that is present passes the fill unchanged. |
| `Preprocess.UnparsedMetricIsNaNThenZero` | backend/main.py:83 | A metric text cell that does not parse stays NaN in the validated row that the raw table stores, while the scaled working column holds 0 for it. |
| `Preprocess.FlagColumnFilled` | backend/main.py:81-83 | On validated 0/1 flags, the cast and the fill leave the flag column as it is. |
| `Preprocess.AllTrueFlagIsZero` | backend/main.py:80-92 | A flag column that is true in every row stores 0 as its `_norm` in every row. |
| `Store.PairedAppend` | backend/main.py:138-153 | Appending a paired batch to paired tables keeps every processed row linked to the raw row at the same position. |
| `Store.Store.constructor` | backend/main.py:122-124 | A fresh store has empty tables, nothing pending, the id sequence at 1, no statement run and no connection opened. The refusals are the given ones. |
| `Store.Store.Connect` | backend/main.py:123-124 | Opening a connection changes no table, starts with nothing pending, and counts one more connection. |
| `Store.Store.InsertRaw` | backend/main.py:127-138 | A refused insert reports the engine's text and changes nothing pending. Otherwise the row is pending under the next id, that id is returned, and the sequence advances. |
| `Store.Store.InsertProcessed` | backend/main.py:141-152 | A refused insert reports the engine's text. Otherwise the record is pending after the earlier ones. |
| `Store.Store.Commit` | backend/main.py:153 | On success, the pending rows are appended to the committed tables in insertion order. On refusal, nothing changes. |
| `Store.Store.Rollback` | backend/main.py:155 | The pending rows are dropped, and the committed tables and the id sequence stay as they were. |
| `Store.Store.Close` | backend/main.py:157-159 | Closing leaves the tables as they are and the store disconnected. |
| `Pipeline.Prepare` | backend/main.py:100-120 | A parse failure gives 400 "Invalid CSV file", and missing columns give 400 with their list. Preparation succeeds exactly when the table parsed, no required column is missing and every row's text can be built. The batch is then the validated rows, their cleaned texts and their `_norm` values. Any other failure is 500 "Internal Server Error". |
| `Pipeline.WriteLog` | backend/main.py:126-152 | For each row, the raw insert comes before the processed insert, and the processed insert carries the raw row's id. |
| `Pipeline.FirstRefused` | backend/main.py:125-156 | It finds the first refused statement of a range, if any. There is none exactly when every statement in the range is accepted. |
| `Pipeline.BatchPaired` | backend/main.py:138-146 | Every processed row of a batch carries the id of the raw row at the same position, and the raw ids increase. |
| `Pipeline.BuildResults` | backend/main.py:162-173 | Result `i` is row `i` with prediction 1, confidence 0.85 and the three fixed explanations. There are exactly `n` results. |
| `Pipeline.InsertRow` | backend/main.py:127-152 | A row writes its raw record, then its processed record with the returned id. The first refusal is reported. |
| `Pipeline.InsertRows` | backend/main.py:125-152 | The loop stops at the first refused statement with its text. Otherwise all rows are pending in order, and nothing is committed yet. |
| `Pipeline.WriteBatch` | backend/main.py:122-159 | The write is all or nothing. Either every raw and processed pair is committed after a single commit, or the tables are unchanged and the refusal's text is reported. The connection is closed either way, and the pairing is kept. |
| `Pipeline.Predict` | backend/main.py:98-178 | A failure before the database leaves the store untouched and opens no connection. Otherwise, if no statement is refused, the response has `total_records = n` and the `n` placeholder results, and all `n` pairs are committed in order. If one is refused, the answer is 500 with the engine's text and the tables are unchanged. |
| `Pipeline.PredictAsShipped` | backend/main.py:122-159 | As shipped, no upload with rows succeeds. Such an upload answers 500, with detail "0" unless the first raw insert is itself refused, and neither table ever changes. |
| `Pipeline.PredictWithIntegerZero` | backend/main.py:89-90 | With the id read fixed but the integer `0` kept, a batch with a zero-range `_norm` column answers 500 and neither table changes. The detail is the driver's "can't adapt type 'numpy.int64'" unless the first raw insert is itself refused. Any other batch behaves as in `Predict`. |
| `Pipeline.OneRowHasIntegerNorm` | backend/main.py:89-90 | In a one-row batch every column has zero range, so every one-row upload meets the failure above. |

## Left out

- CSV parsing (`pd.read_csv`) is not modelled. The handler receives an already-parsed table, or `None` for a file that does not parse.
- The FastAPI application, the CORS middleware and the `HTTPException` transport are left out. An error is an `HttpError(status, detail)` value.
- `backend/database.py` (the psycopg2 connection factory) is not part of this model beyond its cursor factory, which decides the finding below. The SQL text is not modelled either. The engine is the abstract store. Its failures are given as refused statement numbers with their error text, and each statement succeeds or is refused independently.
- The store models an error in `commit` as a refused statement, like an insert. A failure of `close` is not modelled.
- `Store.Store.Connect`: opening the connection and the cursor cannot fail in the model. In the code they sit outside the `try` (backend/main.py:123-124), so a connection failure answers 500 "Internal Server Error" with no rollback. That outcome is not modelled.
- `word_tokenize`, `nltk.pos_tag`, `WordNetLemmatizer`, gensim's stop-word list and the `nltk.download` calls are foreign. They are parameters, not definitions.
- `CoerceNumeric`: the float parser applied to text cells is a parameter, so which strings parse is not modelled.
- `CoerceNumeric`: a boolean cell counts as 1 or 0. A metric column holding only booleans keeps its boolean type in the code, and `max_val - min_val` (backend/main.py:89) then raises a TypeError, answering 500. The model scales such a column instead.
- Floating-point rounding is not modelled. Values are exact `real`s, and NaN is an explicit `None`/`Missing`.
- `Lower`: lowercasing and the `\s`, `\d` and `string.punctuation` classes are restricted to ASCII. Non-ASCII letters, digits and spaces are not modelled.
- `CoerceBoolean`: an integer `1` or `0` cell in a boolean column is treated like any other non-`True` cell, so it becomes 0. Whether pandas' `map` with `{True: 1, False: 0}` matches `1` to the `True` key depends on its version.
- The `created_at` timestamps (`datetime.now()`) are nondeterministic and are not stored in the records.
- The prediction is a constant placeholder, so only its shape is stated.
- `Prepare`: an upload with a header and no rows is modelled as a success with `total_records = 0`. Whether `agg(" ".join, axis=1)` (backend/main.py:70) on an empty table gives an empty column, or a table that the assignment then rejects with a 500, depends on the pandas version. The model does not capture that version dependence.
- `Pipeline.Predict` is the handler with both findings below corrected: the id is read by column name, and a zero-range `_norm` column holds the float `0.0`. `Pipeline.PredictAsShipped` and `Pipeline.PredictWithIntegerZero` model the code as written.
- `LemmatizedText`: a non-empty tag is needed for `tag[0]`. An empty tag, which NLTK's tagger does not produce, is the IndexError outcome, and the request answers 500.
- A text cell that is neither text nor missing makes the `" ".join` raise a TypeError before any connection. It is modelled as a 500 "Internal Server Error" answer.
- `frontend/src/App.js` (the user interface) is not part of this model.

## Findings

| source | as written | input that shows it | evidently intended | confidence | as-written member | corrected member |
|---|---|---|---|---|---|---|
| backend/main.py:138 | `raw_id = cur.fetchone()[0]` on a cursor created with `cursor_factory=RealDictCursor` (backend/database.py:17), whose rows are dictionaries keyed by column name, so `[0]` raises `KeyError(0)` | any upload with at least one row that reaches the database, that is, with all required columns and with cleaning and tagging that succeed: the first raw insert runs, the id read raises, everything is rolled back and the answer is 500 with detail "0" | read the returned id by its column name, `fetchone()["id"]`, so that each processed row carries its raw row's id. The batch then commits unless some `_norm` column has zero range; see the next row. | not executed | `Pipeline.PredictAsShipped` | `Pipeline.Predict` |
| backend/main.py:90 | `df_proc_norm[col + "_norm"] = 0` stores the integer `0` for a zero-range column. `processed_df.loc[idx, …]` (backend/main.py:146-150) then yields a `numpy.int64`, which psycopg2 cannot adapt as a query parameter | any one-row upload that reaches the database, or any such batch in which `revd` or `self` is the same in every row: even with the id read fixed, the first processed insert raises "can't adapt type 'numpy.int64'", everything is rolled back and the answer is 500 | store the float `0.0`, so that every `_norm` value is a float and the batch commits | not executed | `Pipeline.PredictWithIntegerZero` | `Pipeline.Predict` |

=== FILE: cleaning_examples.dfy ===
/**
 * A concrete input on which `clean_text` is not idempotent: the
 * placeholder survives as the upper-case token `URL`, which a second pass
 * lowercases.
 */
module CleaningExamples {
  import opened Wrappers
  import opened TextCleaning

  lemma UrlWordBecomesPlaceholder(t: string)
    requires t == "www.x"
    ensures ReplaceUrls(Lower(t)) == UrlPlaceholder
  {
    assert Lower(t) == t;
    assert IsWord(t);
    ReplaceUrlsWord(t, []);
    assert t + [] == t;
  }

  lemma PlaceholderKeepsDigitFree()
    ensures RemoveDigits("<URL>") == "<URL>"
  {
  }

  lemma PlaceholderLosesBrackets()
    ensures RemovePunctuation("<URL>") == "URL"
  {
  }

  lemma FirstPass(t: string)
    requires t == "www.x"
    ensures RemovePunctuation(RemoveDigits(ReplaceUrls(Lower(t)))) == "URL"
  {
    UrlWordBecomesPlaceholder(t);
    PlaceholderKeepsDigitFree();
    PlaceholderLosesBrackets();
  }

  lemma SecondPass(t: string)
    requires t == "URL"
    ensures RemovePunctuation(RemoveDigits(ReplaceUrls(Lower(t)))) == "url"
  {
    assert Lower(t) == "url";
    assert ReplaceUrls("url") == "url";
    assert RemoveDigits("url") == "url";
    assert RemovePunctuation("url") == "url";
  }

  /** Cleaning `www.x` gives the single token `URL`. */
  lemma CleanWwwAddress()
    ensures CleanText(Some("www.x"), {}) == "URL"
  {
    FirstPass("www.x");
    assert IsWord("URL");
    SplitJoin(["URL"]);
  }

  /** Cleaning `URL` gives `url`. */
  lemma CleanUrlToken()
    ensures CleanText(Some("URL"), {}) == "url"
  {
    SecondPass("URL");
    assert IsWord("url");
    SplitJoin(["url"]);
  }

  /** Cleaning `www.x` gives `URL`; cleaning that again gives `url`. */
  lemma CleanTextNotIdempotent()
    ensures CleanText(Some("www.x"), {}) == "URL"
    ensures CleanText(Some(CleanText(Some("www.x"), {})), {}) == "url"
  {
    CleanWwwAddress();
    CleanUrlToken();
  }
}

=== FILE: frames.dfy ===
/**
 * The parsed upload: a header and rows of cells, and the column lists the
 * pipeline works with (backend/main.py, the module-level constants).
 */
module Frames {
  /** One cell as the CSV reader produces it; `Missing` is NaN. */
  datatype Cell = Num(n: real) | Bool(b: bool) | Str(s: string) | Missing | Other

  type Row = map<string, Cell>

  /** A parsed table: the header, in file order, and its rows. */
  datatype Frame = Frame(columns: seq<string>, rows: seq<Row>)

  /** The cell of `row` in column `col`; a short row reads as NaN, as the CSV reader fills it. */
  function CellAt(row: Row, col: string): Cell {
    if col in row then row[col] else Missing
  }

  const RequiredColumns: seq<string> :=
    ["title", "description", "BFC_message", "la", "ld", "nf", "nd", "ns", "ent", "revd", "self"]

  const NumericColumns: seq<string> := ["la", "ld", "nf", "nd", "ns", "ent"]

  const BooleanColumns: seq<string> := ["revd", "self"]

  const TextColumns: seq<string> := ["title", "description", "BFC_message"]

  /** The columns that receive a `_norm` counterpart, in processing order. */
  const NormalizedColumns: seq<string> := NumericColumns + BooleanColumns

  /** The optional ground-truth label column. */
  const LabelColumn: string := "BIC"
}

=== FILE: lemmatize.dfy ===
/**
 * `lemmatize_text` (backend/main.py): the part of it that is this
 * program's own, the choice of a WordNet category from a part-of-speech tag
 * and the one-lemma-per-token loop. The tokenizer, the tagger and the
 * lemmatizer are foreign and are passed in as functions.
 */
module Lemmatize {
  import opened Wrappers
  import TextCleaning

  /** WordNet's four word categories. */
  datatype Pos = Adj | Noun | Verb | Adv

  /** The foreign collaborators: `word_tokenize`, `nltk.pos_tag` and `WordNetLemmatizer.lemmatize`. */
  datatype Nlp = Nlp(
    tokenize: string -> seq<string>,
    posTag: seq<string> -> seq<(string, string)>,
    lemmatize: (string, Pos) -> string)

  /** `str.upper()` on one ASCII character. */
  function UpperChar(c: char): char {
    if 'a' <= c <= 'z' then (c as int - 32) as char else c
  }

  /** `pos_dict`: the first letter of a tag, upper-cased, to a category. */
  const PosTable: map<char, Pos> := map['J' := Adj, 'N' := Noun, 'V' := Verb, 'R' := Adv]

  /**
   * `pos_dict.get(tag[0].upper(), wordnet.NOUN)`. Indexing the first
   * character is only defined for a non-empty tag.
   */
  function Category(tag: string): Pos
    requires |tag| > 0
  {
    var k := UpperChar(tag[0]);
    if k in PosTable then PosTable[k] else Noun
  }

  /**
   * The category depends only on the first letter of the tag, in either
   * case: J, V and R pick adjective, verb and adverb, and every other
   * first character picks noun.
   */
  lemma CategoryByFirstLetter(tag: string)
    requires |tag| > 0
    ensures Category(tag) == Adj <==> tag[0] == 'J' || tag[0] == 'j'
    ensures Category(tag) == Verb <==> tag[0] == 'V' || tag[0] == 'v'
    ensures Category(tag) == Adv <==> tag[0] == 'R' || tag[0] == 'r'
    ensures Category(tag) == Noun <==> tag[0] !in "JjVvRr"
  {
  }

  /** Every tag in the tagger's output has a first character. */
  predicate TagsNonEmpty(tagged: seq<(string, string)>) {
    forall i :: 0 <= i < |tagged| ==> |tagged[i].1| > 0
  }

  /** The lemma list: one lemma per tagged token, in order. */
  function LemmaList(nlp: Nlp, tagged: seq<(string, string)>): (lemmas: seq<string>)
    requires TagsNonEmpty(tagged)
  {
    seq(|tagged|, i requires 0 <= i < |tagged| => nlp.lemmatize(tagged[i].0, Category(tagged[i].1)))
  }

  /**
   * What `lemmatize_text(text)` returns; `None` stands for the IndexError
   * that `tag[0]` raises on an empty tag.
   */
  function LemmatizedText(nlp: Nlp, text: string): Option<string> {
    var tagged := nlp.posTag(nlp.tokenize(text));
    if TagsNonEmpty(tagged) then Some(TextCleaning.Join(LemmaList(nlp, tagged))) else None
  }

  /**
   * `lemmatize_text`: tag the tokens, append one lemma per tagged token to
   * `lemmatized`, and join them with single spaces.
   */
  method LemmatizeText(nlp: Nlp, text: string) returns (r: Option<string>)
    ensures r == LemmatizedText(nlp, text)
  {
    var tokens := nlp.tokenize(text);
    var tagged := nlp.posTag(tokens);
    var lemmatized: seq<string> := [];
    var i := 0;
    while i < |tagged|
      invariant 0 <= i <= |tagged|
      invariant TagsNonEmpty(tagged[..i])
      invariant |lemmatized| == i
      invariant forall k :: 0 <= k < i ==> lemmatized[k] == nlp.lemmatize(tagged[k].0, Category(tagged[k].1))
    {
      var (word, tag) := tagged[i];
      if |tag| == 0 {
        assert !TagsNonEmpty(tagged);
        return None;
      }
      lemmatized := lemmatized + [nlp.lemmatize(word, Category(tag))];
      i := i + 1;
    }
    assert tagged[..i] == tagged;
    assert lemmatized == LemmaList(nlp, tagged);
    r := Some(TextCleaning.Join(lemmatized));
  }

  /** A tagger that returns each token, in order, with a non-empty tag (NLTK's contract). */
  predicate FaithfulTagger(nlp: Nlp, tokens: seq<string>) {
    var tagged := nlp.posTag(tokens);
    |tagged| == |tokens| && TagsNonEmpty(tagged) &&
    forall i :: 0 <= i < |tokens| ==> tagged[i].0 == tokens[i]
  }

  /**
   * With a faithful tagger, lemmatisation succeeds and emits exactly one
   * lemma per token, in token order, each lemmatised under the category of
   * its own tag.
   */
  lemma OneLemmaPerToken(nlp: Nlp, text: string)
    requires FaithfulTagger(nlp, nlp.tokenize(text))
    ensures var tokens := nlp.tokenize(text);
      var tagged := nlp.posTag(tokens);
      && LemmatizedText(nlp, text).Some?
      && |LemmaList(nlp, tagged)| == |tokens|
      && forall i :: 0 <= i < |tokens| ==>
           LemmaList(nlp, tagged)[i] == nlp.lemmatize(tokens[i], Category(tagged[i].1))
  {
  }
}

=== FILE: normalize.dfy ===
/**
 * Min-max scaling of one column, the loop body of `preprocess_numeric`
 * (backend/main.py), over exact reals.
 */
module Normalize {

  function MinOf(v: seq<real>): (m: real)
    requires |v| > 0
    ensures m in v
    ensures forall i :: 0 <= i < |v| ==> m <= v[i]
  {
    if |v| == 1 then v[0]
    else
      var t := MinOf(v[1..]);
      assert forall i :: 1 <= i < |v| ==> v[i] == v[1..][i - 1];
      if v[0] <= t then v[0] else t
  }

  function MaxOf(v: seq<real>): (m: real)
    requires |v| > 0
    ensures m in v
    ensures forall i :: 0 <= i < |v| ==> v[i] <= m
  {
    if |v| == 1 then v[0]
    else
      var t := MaxOf(v[1..]);
      assert forall i :: 1 <= i < |v| ==> v[i] == v[1..][i - 1];
      if v[0] >= t then v[0] else t
  }

  /** All entries of the column are equal (its range is zero). */
  predicate Constant(v: seq<real>) {
    forall i, j :: 0 <= i < |v| && 0 <= j < |v| ==> v[i] == v[j]
  }

  /**
   * `0` for every row when `max - min == 0`, otherwise
   * `(v - min) / (max - min)`. An empty column stays empty.
   */
  function MinMaxNormalize(v: seq<real>): (r: seq<real>)
    ensures |r| == |v|
  {
    if |v| == 0 then []
    else
      var lo, hi := MinOf(v), MaxOf(v);
      if hi - lo == 0.0 then seq(|v|, i => 0.0)
      else seq(|v|, i requires 0 <= i < |v| => Rescale(v[i], lo, hi))
  }

  /** `(x - lo) / (hi - lo)`. */
  function Rescale(x: real, lo: real, hi: real): real
    requires hi - lo != 0.0
  {
    (x - lo) / (hi - lo)
  }

  lemma ConstantIffZeroRange(v: seq<real>)
    requires |v| > 0
    ensures Constant(v) <==> MaxOf(v) - MinOf(v) == 0.0
  {
    if !Constant(v) {
      PositiveRange(v);
    } else {
      var lo, hi := MinOf(v), MaxOf(v);
      var i :| 0 <= i < |v| && v[i] == lo;
      var j :| 0 <= j < |v| && v[j] == hi;
    }
  }

  lemma PositiveRange(v: seq<real>)
    requires !Constant(v)
    ensures |v| > 0 && MaxOf(v) - MinOf(v) > 0.0
  {
    var a, b :| 0 <= a < |v| && 0 <= b < |v| && v[a] != v[b];
    assert MinOf(v) <= v[a] <= MaxOf(v);
    assert MinOf(v) <= v[b] <= MaxOf(v);
  }

  /** A zero-range column (all values equal, a single row included) normalises to all zeros. */
  lemma ConstantColumnIsZero(v: seq<real>)
    requires Constant(v)
    ensures forall i :: 0 <= i < |v| ==> MinMaxNormalize(v)[i] == 0.0
  {
    if |v| > 0 {
      ConstantIffZeroRange(v);
    }
  }

  /** Every normalised value lies in [0, 1]. */
  lemma NormalizedInUnitInterval(v: seq<real>, i: nat)
    requires i < |v|
    ensures 0.0 <= MinMaxNormalize(v)[i] <= 1.0
  {
    var lo, hi := MinOf(v), MaxOf(v);
    if hi - lo != 0.0 {
      assert MinMaxNormalize(v)[i] == Rescale(v[i], lo, hi);
      DivBounds(v[i] - lo, hi - lo);
    }
  }

  lemma DivBounds(x: real, d: real)
    requires 0.0 < d && 0.0 <= x <= d
    ensures 0.0 <= x / d <= 1.0
  {
    assert x / d * d == x;
  }

  /** A row holding the column minimum gets 0. */
  lemma MinimumRowIsZero(v: seq<real>, i: nat)
    requires i < |v| && v[i] == MinOf(v)
    ensures MinMaxNormalize(v)[i] == 0.0
  {
    var lo, hi := MinOf(v), MaxOf(v);
    if hi - lo != 0.0 {
      assert MinMaxNormalize(v)[i] == Rescale(v[i], lo, hi);
      DivPoints(v[i] - lo, hi - lo);
    }
  }

  /** In a column that is not constant, a row holding the column maximum gets 1. */
  lemma MaximumRowIsOne(v: seq<real>, i: nat)
    requires i < |v| && v[i] == MaxOf(v) && !Constant(v)
    ensures MinMaxNormalize(v)[i] == 1.0
  {
    PositiveRange(v);
    RescaledAt(v, i);
    DivPoints(v[i] - MinOf(v), MaxOf(v) - MinOf(v));
  }

  /** With a positive range, each entry is rescaled by the column's bounds. */
  lemma RescaledAt(v: seq<real>, i: nat)
    requires i < |v| && MaxOf(v) - MinOf(v) > 0.0
    ensures MinMaxNormalize(v)[i] == Rescale(v[i], MinOf(v), MaxOf(v))
  {
  }

  /**
   * In a column that is not constant the normalised values compare
   * exactly as the inputs do (in a constant one they are all 0).
   */
  lemma NormalizePreservesOrder(v: seq<real>, i: nat, j: nat)
    requires i < |v| && j < |v| && !Constant(v)
    ensures v[i] <= v[j] <==> MinMaxNormalize(v)[i] <= MinMaxNormalize(v)[j]
  {
    PositiveRange(v);
    RescaledOrder(v, i, j);
  }

  lemma RescaledOrder(v: seq<real>, i: nat, j: nat)
    requires i < |v| && j < |v| && MaxOf(v) - MinOf(v) > 0.0
    ensures v[i] <= v[j] <==> MinMaxNormalize(v)[i] <= MinMaxNormalize(v)[j]
  {
    RescaledAt(v, i);
    RescaledAt(v, j);
    RescaleMonotone(v[i], v[j], MinOf(v), MaxOf(v));
  }

  lemma RescaleMonotone(x: real, y: real, lo: real, hi: real)
    requires hi - lo > 0.0
    ensures x <= y <==> Rescale(x, lo, hi) <= Rescale(y, lo, hi)
  {
    DivMonotone(x - lo, y - lo, hi - lo);
  }

  lemma DivPoints(x: real, d: real)
    requires d != 0.0
    ensures x == 0.0 ==> x / d == 0.0
    ensures x == d ==> x / d == 1.0
  {
  }

  lemma DivMonotone(x: real, y: real, d: real)
    requires d > 0.0
    ensures x <= y <==> x / d <= y / d
  {
    assert x / d * d == x;
    assert y / d * d == y;
  }

  /**
   * A 0/1 column (the boolean flags) is left as it is unless all its
   * entries agree, in which case it becomes all zeros: an all-true column
   * normalises to 0 in every row.
   */
  lemma FlagColumn(v: seq<real>)
    requires forall i :: 0 <= i < |v| ==> v[i] == 0.0 || v[i] == 1.0
    ensures !Constant(v) ==> MinMaxNormalize(v) == v
    ensures Constant(v) ==> forall i :: 0 <= i < |v| ==> MinMaxNormalize(v)[i] == 0.0
  {
    if Constant(v) {
      ConstantColumnIsZero(v);
    } else {
      PositiveRange(v);
      var lo, hi := MinOf(v), MaxOf(v);
      assert lo == 0.0 && hi == 1.0 by {
        var i :| 0 <= i < |v| && v[i] == lo;
        var j :| 0 <= j < |v| && v[j] == hi;
      }
    }
  }
}

=== FILE: pipeline.dfy ===
/**
 * The `/api/predict` handler (backend/main.py): validation, preprocessing,
 * the dual write of every row inside one transaction, and the placeholder
 * response.
 */
module Pipeline {
  import opened Wrappers
  import opened Frames
  import opened Validation
  import opened TextCleaning
  import opened Lemmatize
  import opened Preprocess
  import opened Store
  import opened Normalize

  /** One entry of `results`. */
  datatype RowResult = RowResult(row: nat, prediction: int, confidence: real, explanation: seq<string>)

  /** The response body: `total_records` and `results`. */
  datatype Response = Response(totalRecords: nat, results: seq<RowResult>)

  /** The fixed explanation of the placeholder prediction. */
  const Explanation: seq<string> := [
    "High code churn increased risk",
    "Commit message complexity contributed",
    "Low developer experience"
  ]

  /** What the stages before the database produce: the rows and their derived values. */
  datatype Batch = Batch(rows: seq<ValidRow>, texts: seq<string>, norms: seq<map<string, real>>)

  /**
   * The stages before any connection is opened: parsing (given), the
   * missing-column check, coercion, and both preprocessing steps.
   */
  function Prepare(input: Option<Frame>, parse: string -> Option<real>, nlp: Nlp, stop: set<string>): (r: Result<Batch>)
    ensures input.None? ==> r == Err(HttpError(400, "Invalid CSV file"))
    ensures input.Some? && MissingColumns(RequiredColumns, input.value.columns) != [] ==>
      r == Err(HttpError(400, MissingColumnsDetail(MissingColumns(RequiredColumns, input.value.columns))))
    ensures r.Ok? ==>
      && (forall c :: c in RequiredColumns ==> c in input.value.columns)
      && |r.value.rows| == |r.value.texts| == |r.value.norms| == |input.value.rows|
    ensures r.Err? ==> r.error.status == 400 || r.error == HttpError(500, "Internal Server Error")
    ensures r.Ok? <==>
      && input.Some?
      && MissingColumns(RequiredColumns, input.value.columns) == []
      && CleanTextColumn(nlp, stop, ValidateFrame(input.value, parse)).Some?
    ensures r.Ok? ==>
      && r.value.rows == ValidateFrame(input.value, parse)
      && r.value.texts == CleanTextColumn(nlp, stop, r.value.rows).value
      && r.value.norms == PreprocessNumeric(r.value.rows)
  {
    match input
    case None => Err(HttpError(400, "Invalid CSV file"))
    case Some(f) =>
      var missing := MissingColumns(RequiredColumns, f.columns);
      if missing != [] then Err(HttpError(400, MissingColumnsDetail(missing)))
      else
        var rows := ValidateFrame(f, parse);
        match CleanTextColumn(nlp, stop, rows)
        case None => Err(HttpError(500, "Internal Server Error"))
        case Some(texts) => Ok(Batch(rows, texts, PreprocessNumeric(rows)))
  }

  /** The raw rows a successful batch commits, with ids taken in order from `firstId`. */
  function RawBatch(rows: seq<ValidRow>, firstId: nat): seq<RawRecord> {
    seq(|rows|, i requires 0 <= i < |rows| => RawRecord(firstId + i, rows[i]))
  }

  /** The processed rows a successful batch commits, each carrying its raw row's id. */
  function ProcessedBatch(b: Batch, firstId: nat): seq<ProcessedRecord>
    requires |b.texts| == |b.rows| && |b.norms| == |b.rows|
  {
    seq(|b.rows|, i requires 0 <= i < |b.rows| => ProcessedRecord(firstId + i, b.texts[i], b.norms[i], b.rows[i].bic))
  }

  /** The statements of a successful batch: for each row the raw insert, then the processed insert. */
  function WriteLog(firstId: nat, n: nat): (log: seq<Statement>)
    ensures |log| == 2 * n
    ensures forall i :: 0 <= i < n ==> log[2 * i] == InsertRawStmt(firstId + i) && log[2 * i + 1] == InsertProcessedStmt(firstId + i)
  {
    if n == 0 then [] else WriteLog(firstId, n - 1) + [InsertRawStmt(firstId + n - 1), InsertProcessedStmt(firstId + n - 1)]
  }

  /** The first statement number in `[from, from + count)` that the engine refuses, if any. */
  function FirstRefused(refusals: map<nat, string>, from: nat, count: nat): (k: Option<nat>)
    ensures k.None? <==> forall j :: from <= j < from + count ==> j !in refusals
    ensures k.Some? ==> (
      && from <= k.value < from + count
      && k.value in refusals
      && forall j :: from <= j < k.value ==> j !in refusals)
    decreases count
  {
    if count == 0 then None
    else if from in refusals then Some(from)
    else FirstRefused(refusals, from + 1, count - 1)
  }

  /** A batch's writes pair every processed row with the raw row inserted just before it. */
  lemma BatchPaired(b: Batch, firstId: nat)
    requires |b.texts| == |b.rows| && |b.norms| == |b.rows|
    ensures Paired(RawBatch(b.rows, firstId), ProcessedBatch(b, firstId))
    ensures IncreasingIds(RawBatch(b.rows, firstId))
  {
  }

  /** The placeholder results: row `i` gets prediction 1, confidence 0.85 and the fixed explanation. */
  method BuildResults(n: nat) returns (results: seq<RowResult>)
    ensures |results| == n
    ensures forall i :: 0 <= i < n ==> results[i] == RowResult(i, 1, 0.85, Explanation)
  {
    results := [];
    var i := 0;
    while i < n
      invariant 0 <= i <= n
      invariant |results| == i
      invariant forall k :: 0 <= k < i ==> results[k] == RowResult(k, 1, 0.85, Explanation)
    {
      results := results + [RowResult(i, 1, 0.85, Explanation)];
      i := i + 1;
    }
  }

  /** The rows and derived values agree in length, as `Prepare` makes them. */
  predicate WellSized(b: Batch) {
    |b.texts| == |b.rows| && |b.norms| == |b.rows|
  }

  /** The first `n` rows of a batch with their derived values. */
  function Prefix(b: Batch, n: nat): (p: Batch)
    requires WellSized(b) && n <= |b.rows|
    ensures WellSized(p) && |p.rows| == n
  {
    Batch(b.rows[..n], b.texts[..n], b.norms[..n])
  }

  /** Writing one more row appends its raw and processed records to the batch's pending ones. */
  lemma BatchStep(b: Batch, i: nat, firstId: nat)
    requires WellSized(b) && i < |b.rows|
    ensures RawBatch(b.rows[..i + 1], firstId) == RawBatch(b.rows[..i], firstId) + [RawRecord(firstId + i, b.rows[i])]
    ensures ProcessedBatch(Prefix(b, i + 1), firstId)
      == ProcessedBatch(Prefix(b, i), firstId) + [ProcessedRecord(firstId + i, b.texts[i], b.norms[i], b.rows[i].bic)]
  {
  }

  /**
   * One iteration of the insert loop: the raw insert, then the processed
   * insert carrying the id the raw insert returned. On a refusal the error
   * text of the refused statement is reported and nothing after it runs.
   */
  method InsertRow(db: Store, b: Batch, i: nat) returns (failure: Option<string>)
    requires WellSized(b) && i < |b.rows|
    requires db.Valid() && db.connected
    modifies db
    ensures db.Valid() && db.connected && db.connections == old(db.connections)
    ensures db.raw == old(db.raw) && db.processed == old(db.processed)
    ensures var s := old(db.statements);
      && (s in db.refusals ==> failure == Some(db.refusals[s]))
      && (s !in db.refusals && s + 1 in db.refusals ==> failure == Some(db.refusals[s + 1]))
      && (s !in db.refusals && s + 1 !in db.refusals ==>
            && failure.None?
            && db.statements == s + 2
            && db.nextId == old(db.nextId) + 1
            && db.pendingRaw == old(db.pendingRaw) + [RawRecord(old(db.nextId), b.rows[i])]
            && db.pendingProcessed == old(db.pendingProcessed) + [ProcessedRecord(old(db.nextId), b.texts[i], b.norms[i], b.rows[i].bic)]
            && db.log == old(db.log) + [InsertRawStmt(old(db.nextId)), InsertProcessedStmt(old(db.nextId))])
  {
    var rawResult := db.InsertRaw(b.rows[i]);
    if rawResult.DbError? {
      return Some(rawResult.message);
    }
    var procResult := db.InsertProcessed(ProcessedRecord(rawResult.value, b.texts[i], b.norms[i], b.rows[i].bic));
    if procResult.DbError? {
      return Some(procResult.message);
    }
    failure := None;
  }

  /**
   * The insert loop of `predict` on an open connection, row by row. It
   * stops at the first refused statement and reports its error text;
   * otherwise every row is pending, in order, and nothing is committed yet.
   */
  method InsertRows(db: Store, b: Batch) returns (failure: Option<string>)
    requires WellSized(b)
    requires db.Valid() && db.connected && db.pendingRaw == [] && db.pendingProcessed == []
    modifies db
    ensures db.Valid() && db.connected && db.connections == old(db.connections)
    ensures db.raw == old(db.raw) && db.processed == old(db.processed)
    ensures var refused := FirstRefused(db.refusals, old(db.statements), 2 * |b.rows|);
      && (refused.Some? ==> failure == Some(db.refusals[refused.value]))
      && (refused.None? ==>
            && failure.None?
            && db.statements == old(db.statements) + 2 * |b.rows|
            && db.pendingRaw == RawBatch(b.rows, old(db.nextId))
            && db.pendingProcessed == ProcessedBatch(b, old(db.nextId))
            && db.log == old(db.log) + WriteLog(old(db.nextId), |b.rows|))
  {
    var n := |b.rows|;
    ghost var start := db.statements;
    ghost var log0 := db.log;
    var firstId := db.nextId;
    failure := None;
    var i := 0;
    while i < n
      invariant 0 <= i <= n && failure.None?
      invariant db.Valid() && db.connected && db.connections == old(db.connections)
      invariant db.raw == old(db.raw) && db.processed == old(db.processed)
      invariant db.statements == start + 2 * i && db.nextId == firstId + i
      invariant FirstRefused(db.refusals, start, 2 * i).None?
      invariant db.pendingRaw == RawBatch(b.rows[..i], firstId)
      invariant db.pendingProcessed == ProcessedBatch(Prefix(b, i), firstId)
      invariant db.log == log0 + WriteLog(firstId, i)
    {
      failure := InsertRow(db, b, i);
      if failure.Some? {
        if start + 2 * i in db.refusals {
          RefusedAt(db.refusals, start, 2 * i, 2 * n);
        } else {
          RefusedAt(db.refusals, start, 2 * i + 1, 2 * n);
        }
        return;
      }
      NoRefusalExtends(db.refusals, start, 2 * i);
      BatchStep(b, i, firstId);
      assert db.log == log0 + WriteLog(firstId, i + 1);
      i := i + 1;
    }
    assert b.rows[..n] == b.rows && Prefix(b, n) == b;
  }

  /**
   * The `try` block of `predict` with its `except` and `finally`: connect,
   * insert every row, commit once; on any refusal roll back, so that the
   * batch is all or nothing, and report the engine's text. The connection
   * is closed either way, and the pairing of committed rows is kept.
   */
  method WriteBatch(db: Store, b: Batch) returns (failure: Option<string>)
    requires WellSized(b)
    requires db.Valid() && !db.connected
    modifies db
    ensures db.Valid() && !db.connected && db.connections == old(db.connections) + 1
    ensures var refused := FirstRefused(db.refusals, old(db.statements), 2 * |b.rows| + 1);
      && (refused.None? ==>
            && failure.None?
            && db.raw == old(db.raw) + RawBatch(b.rows, old(db.nextId))
            && db.processed == old(db.processed) + ProcessedBatch(b, old(db.nextId))
            && db.log == old(db.log) + WriteLog(old(db.nextId), |b.rows|) + [CommitStmt])
      && (refused.Some? ==>
            && failure == Some(db.refusals[refused.value])
            && db.raw == old(db.raw) && db.processed == old(db.processed))
    ensures Paired(old(db.raw), old(db.processed)) ==> Paired(db.raw, db.processed)
  {
    ghost var start := db.statements;
    var n := |b.rows|;
    db.Connect();
    failure := InsertRows(db, b);
    if failure.Some? {
      FirstRefusedExtends(db.refusals, start, 2 * n, 2 * n + 1);
      db.Rollback();
      db.Close();
      return;
    }
    var commitResult := db.Commit();
    if commitResult.DbError? {
      RefusedAt(db.refusals, start, 2 * n, 2 * n + 1);
      db.Rollback();
      db.Close();
      return Some(commitResult.message);
    }
    BatchPaired(b, old(db.nextId));
    if Paired(old(db.raw), old(db.processed)) {
      PairedAppend(old(db.raw), old(db.processed), RawBatch(b.rows, old(db.nextId)), ProcessedBatch(b, old(db.nextId)));
    }
    db.Close();
  }

  /**
   * `predict`. Failures before the database leave the store untouched
   * and open no connection. Otherwise every row is written raw row first,
   * then its processed row carrying the id the raw insert returned, and a
   * single commit follows: either all rows are committed and the response
   * lists them, or a refused statement rolls everything back and the
   * engine's error text is returned with status 500.
   */
  method Predict(db: Store, input: Option<Frame>, parse: string -> Option<real>, nlp: Nlp, stop: set<string>)
    returns (res: Result<Response>)
    requires db.Valid() && !db.connected
    modifies db
    ensures db.Valid() && !db.connected
    ensures Prepare(input, parse, nlp, stop).Err? ==>
      res == Err(Prepare(input, parse, nlp, stop).error) && unchanged(db)
    ensures Prepare(input, parse, nlp, stop).Ok? ==>
      var b := Prepare(input, parse, nlp, stop).value;
      var n := |b.rows|;
      var refused := FirstRefused(db.refusals, old(db.statements), 2 * n + 1);
      && db.connections == old(db.connections) + 1
      && (refused.None? ==>
            && res.Ok?
            && res.value.totalRecords == n
            && |res.value.results| == n
            && (forall i :: 0 <= i < n ==> res.value.results[i] == RowResult(i, 1, 0.85, Explanation))
            && db.raw == old(db.raw) + RawBatch(b.rows, old(db.nextId))
            && db.processed == old(db.processed) + ProcessedBatch(b, old(db.nextId))
            && db.log == old(db.log) + WriteLog(old(db.nextId), n) + [CommitStmt])
      && (refused.Some? ==>
            && res == Err(HttpError(500, db.refusals[refused.value]))
            && db.raw == old(db.raw) && db.processed == old(db.processed))
    ensures Paired(old(db.raw), old(db.processed)) ==> Paired(db.raw, db.processed)
  {
    var prepared := Prepare(input, parse, nlp, stop);
    if prepared.Err? {
      return Err(prepared.error);
    }
    var b := prepared.value;
    var failure := WriteBatch(db, b);
    if failure.Some? {
      return Err(HttpError(500, failure.value));
    }
    var results := BuildResults(|b.rows|);
    res := Ok(Response(|b.rows|, results));
  }

  /** Two more accepted statements extend a refusal-free range by two. */
  lemma NoRefusalExtends(refusals: map<nat, string>, from: nat, m: nat)
    requires FirstRefused(refusals, from, m).None?
    requires from + m !in refusals && from + m + 1 !in refusals
    ensures FirstRefused(refusals, from, m + 2).None?
  {
  }

  /** A refusal among the first `m` statements is also the first refusal of any longer range. */
  lemma FirstRefusedExtends(refusals: map<nat, string>, from: nat, m: nat, count: nat)
    requires m <= count
    requires FirstRefused(refusals, from, m).Some?
    ensures FirstRefused(refusals, from, count) == FirstRefused(refusals, from, m)
  {
    var k := FirstRefused(refusals, from, m).value;
    var k' := FirstRefused(refusals, from, count);
    assert k'.Some?;
  }

  /** The first refusal found at offset `m`, after `m` accepted statements, is the first in any longer range. */
  lemma RefusedAt(refusals: map<nat, string>, from: nat, m: nat, count: nat)
    requires m < count
    requires FirstRefused(refusals, from, m).None? && from + m in refusals
    ensures FirstRefused(refusals, from, count) == Some(from + m)
  {
    var k := FirstRefused(refusals, from, count);
    assert k.Some?;
  }

  /** The text of `KeyError(0)`, which the handler passes on as the 500 detail. */
  const KeyErrorZero: string := "0"

  /**
   * `predict` as shipped with its connection factory: the cursor returns
   * rows as dictionaries keyed by column name, so the id read
   * `cur.fetchone()[0]` after the first raw insert raises `KeyError(0)`.
   * The first row's processed insert is never reached, every non-empty
   * upload is rolled back and answered with 500 and detail "0", and
   * nothing is ever added to either table.
   */
  method PredictAsShipped(db: Store, input: Option<Frame>, parse: string -> Option<real>, nlp: Nlp, stop: set<string>)
    returns (res: Result<Response>)
    requires db.Valid() && !db.connected
    modifies db
    ensures db.Valid() && !db.connected
    ensures db.raw == old(db.raw) && db.processed == old(db.processed)
    ensures Prepare(input, parse, nlp, stop).Err? ==> res == Err(Prepare(input, parse, nlp, stop).error)
    ensures res.Ok? ==> Prepare(input, parse, nlp, stop).Ok? && |Prepare(input, parse, nlp, stop).value.rows| == 0
    ensures Prepare(input, parse, nlp, stop).Ok? && |Prepare(input, parse, nlp, stop).value.rows| > 0 ==>
      res.Err? && res.error.status == 500
    ensures (Prepare(input, parse, nlp, stop).Ok? && |Prepare(input, parse, nlp, stop).value.rows| > 0
             && old(db.statements) !in db.refusals) ==> res == Err(HttpError(500, KeyErrorZero))
  {
    var prepared := Prepare(input, parse, nlp, stop);
    if prepared.Err? {
      return Err(prepared.error);
    }
    var b := prepared.value;
    db.Connect();
    var failure: Option<string> := None;
    if |b.rows| > 0 {
      var rawResult := db.InsertRaw(b.rows[0]);
      failure := Some(if rawResult.DbError? then rawResult.message else KeyErrorZero);
    } else {
      var commitResult := db.Commit();
      if commitResult.DbError? {
        failure := Some(commitResult.message);
      }
    }
    if failure.Some? {
      db.Rollback();
      db.Close();
      return Err(HttpError(500, failure.value));
    }
    db.Close();
    var results := BuildResults(0);
    res := Ok(Response(0, results));
  }

  /** The error psycopg2 raises for a `numpy.int64` query parameter, which it cannot adapt. */
  const CannotAdaptInt64: string := "can't adapt type 'numpy.int64'"

  /**
   * Some `_norm` column of a non-empty batch has zero range, so
   * `preprocess_numeric` stored the integer `0` for it and every value read
   * from it is a `numpy.int64`.
   */
  predicate HasIntegerNorm(rows: seq<ValidRow>) {
    |rows| > 0 && exists c :: c in NormalizedColumns && Constant(Filled(rows, c))
  }

  /** In a one-row batch every column has zero range. */
  lemma OneRowHasIntegerNorm(rows: seq<ValidRow>)
    requires |rows| == 1
    ensures HasIntegerNorm(rows)
  {
    assert "la" in NormalizedColumns;
    assert Constant(Filled(rows, "la"));
  }

  /**
   * `predict` with the id read by column name but with the integer `0` that
   * `preprocess_numeric` stores for a zero-range column: when the batch has
   * such a column, the processed insert of the first row cannot adapt its
   * `numpy.int64` parameter, the batch is rolled back and the answer is 500
   * with nothing added to either table. Otherwise it behaves as `Predict`.
   */
  method PredictWithIntegerZero(db: Store, input: Option<Frame>, parse: string -> Option<real>, nlp: Nlp, stop: set<string>)
    returns (res: Result<Response>)
    requires db.Valid() && !db.connected
    modifies db
    ensures db.Valid() && !db.connected
    ensures Prepare(input, parse, nlp, stop).Err? ==>
      res == Err(Prepare(input, parse, nlp, stop).error) && unchanged(db)
    ensures Prepare(input, parse, nlp, stop).Ok? && HasIntegerNorm(Prepare(input, parse, nlp, stop).value.rows) ==>
      && res.Err? && res.error.status == 500
      && db.raw == old(db.raw) && db.processed == old(db.processed)
      && (old(db.statements) !in db.refusals ==> res == Err(HttpError(500, CannotAdaptInt64)))
    ensures Prepare(input, parse, nlp, stop).Ok? && !HasIntegerNorm(Prepare(input, parse, nlp, stop).value.rows) ==>
      var b := Prepare(input, parse, nlp, stop).value;
      var refused := FirstRefused(db.refusals, old(db.statements), 2 * |b.rows| + 1);
      && (refused.None? ==>
            && res.Ok? && res.value.totalRecords == |b.rows| && |res.value.results| == |b.rows|
            && (forall i :: 0 <= i < |b.rows| ==> res.value.results[i] == RowResult(i, 1, 0.85, Explanation))
            && db.raw == old(db.raw) + RawBatch(b.rows, old(db.nextId))
            && db.processed == old(db.processed) + ProcessedBatch(b, old(db.nextId))
            && db.log == old(db.log) + WriteLog(old(db.nextId), |b.rows|) + [CommitStmt])
      && (refused.Some? ==>
            && res == Err(HttpError(500, db.refusals[refused.value]))
            && db.raw == old(db.raw) && db.processed == old(db.processed))
  {
    var prepared := Prepare(input, parse, nlp, stop);
    if prepared.Err? {
      return Err(prepared.error);
    }
    var b := prepared.value;
    if !HasIntegerNorm(b.rows) {
      var failure := WriteBatch(db, b);
      if failure.Some? {
        return Err(HttpError(500, failure.value));
      }
      var results := BuildResults(|b.rows|);
      return Ok(Response(|b.rows|, results));
    }
    db.Connect();
    var rawResult := db.InsertRaw(b.rows[0]);
    var detail := if rawResult.DbError? then rawResult.message else CannotAdaptInt64;
    db.Rollback();
    db.Close();
    res := Err(HttpError(500, detail));
  }
}

=== FILE: preprocess.dfy ===
/**
 * `preprocess_text_columns` and `preprocess_numeric` (backend/main.py)
 * over the validated rows: one `clean_text` value per row and the eight
 * `_norm` values per row.
 */
module Preprocess {
  import opened Wrappers
  import opened Frames
  import opened Validation
  import opened TextCleaning
  import opened Lemmatize
  import opened Normalize

  /** A text cell after `fillna("")`; any other non-string value makes `" ".join` raise. */
  function TextField(c: Cell): Option<string> {
    match c
    case Str(s) => Some(s)
    case Missing => Some("")
    case _ => None
  }

  /**
   * The three text fields joined with single spaces (`agg(" ".join, axis=1)`).
   * The join fails exactly when a field is neither text nor missing; its
   * tokens are those of the three fields in order, so a missing field adds
   * none.
   */
  function JoinedText(row: ValidRow): (r: Option<string>)
    ensures r.Some? <==> TextField(row.title).Some? && TextField(row.description).Some? && TextField(row.message).Some?
    ensures r.Some? ==>
      Split(r.value) == Split(TextField(row.title).value) + Split(TextField(row.description).value) + Split(TextField(row.message).value)
  {
    match (TextField(row.title), TextField(row.description), TextField(row.message))
    case (Some(a), Some(b), Some(c)) =>
      SplitAroundWhitespace(a + " " + b, ' ', c);
      SplitAroundWhitespace(a, ' ', b);
      Some(a + " " + b + " " + c)
    case _ => None
  }

  /** `lemmatize_text(clean_text(joined))` for one row; `None` when either step raises. */
  function RowCleanText(nlp: Nlp, stop: set<string>, row: ValidRow): Option<string> {
    match JoinedText(row)
    case None => None
    case Some(j) => LemmatizedText(nlp, CleanText(Some(j), stop))
  }

  /**
   * The `clean_text` column: defined exactly when every row's text can be
   * built, and then one value per row.
   */
  function CleanTextColumn(nlp: Nlp, stop: set<string>, rows: seq<ValidRow>): (col: Option<seq<string>>)
    ensures col.Some? <==> forall i :: 0 <= i < |rows| ==> RowCleanText(nlp, stop, rows[i]).Some?
    ensures col.Some? ==> |col.value| == |rows|
  {
    if forall i :: 0 <= i < |rows| ==> RowCleanText(nlp, stop, rows[i]).Some? then
      Some(seq(|rows|, i requires 0 <= i < |rows| => RowCleanText(nlp, stop, rows[i]).value))
    else None
  }

  /**
   * A row's cleaned text depends on that row alone: equal rows get equal
   * values in any two batches, unlike the batch-relative `_norm` values.
   */
  lemma CleanTextIsRowLocal(nlp: Nlp, stop: set<string>, rows: seq<ValidRow>, others: seq<ValidRow>, i: nat, j: nat)
    requires i < |rows| && j < |others| && rows[i] == others[j]
    requires CleanTextColumn(nlp, stop, rows).Some? && CleanTextColumn(nlp, stop, others).Some?
    ensures CleanTextColumn(nlp, stop, rows).value[i] == CleanTextColumn(nlp, stop, others).value[j]
    ensures Some(CleanTextColumn(nlp, stop, rows).value[i]) == RowCleanText(nlp, stop, rows[i])
  {
  }

  /** `fillna(0)` on a coerced numeric cell. */
  function FillNa(v: Option<real>): real {
    match v
    case Some(x) => x
    case None => 0.0
  }

  /** `1 if x == True else 0` on a coerced boolean value. */
  function FlagValue(x: real): (r: real)
    ensures r == 1.0 <==> x == 1.0
    ensures r == 0.0 <==> x != 1.0
  {
    if x == 1.0 then 1.0 else 0.0
  }

  /** Column `col` of the working copy `df_proc` once booleans are cast and NaN is filled. */
  function Filled(rows: seq<ValidRow>, col: string): (v: seq<real>)
    ensures |v| == |rows|
  {
    seq(|rows|, i requires 0 <= i < |rows| =>
      if col in rows[i].flags then FlagValue(rows[i].flags[col])
      else if col in rows[i].metrics then FillNa(rows[i].metrics[col])
      else 0.0)
  }

  /**
   * `preprocess_numeric`: for each row, the `_norm` value of each of the
   * eight columns, keyed by the column name. The input rows are values and
   * stay as they are.
   */
  function PreprocessNumeric(rows: seq<ValidRow>): (norms: seq<map<string, real>>)
    ensures |norms| == |rows|
    ensures forall i :: 0 <= i < |rows| ==> norms[i].Keys == set c | c in NormalizedColumns
  {
    seq(|rows|, i requires 0 <= i < |rows| =>
      map c | c in NormalizedColumns :: MinMaxNormalize(Filled(rows, c))[i])
  }

  /** The `_norm` values of column `col`, read down the rows. */
  function NormColumn(norms: seq<map<string, real>>, col: string): seq<real>
    requires forall i :: 0 <= i < |norms| ==> col in norms[i]
  {
    seq(|norms|, i requires 0 <= i < |norms| => norms[i][col])
  }

  /**
   * Each `_norm` column is the min-max scaling of its filled column alone,
   * so the scaling facts hold per column: all zeros when the column is
   * constant (a one-row batch included), otherwise within [0, 1] with the
   * minimum row at 0 and the maximum row at 1.
   */
  lemma NormColumnIsScaled(rows: seq<ValidRow>, col: string)
    requires col in NormalizedColumns
    ensures var norms := PreprocessNumeric(rows);
      NormColumn(norms, col) == MinMaxNormalize(Filled(rows, col))
  {
    var norms := PreprocessNumeric(rows);
    var v := MinMaxNormalize(Filled(rows, col));
    forall i | 0 <= i < |rows| ensures NormColumn(norms, col)[i] == v[i] {
      assert norms[i][col] == v[i];
    }
  }

  /**
   * A text cell in a metric column that does not parse stays NaN in the
   * validated row, which the raw table stores, while the working column
   * that is scaled holds 0 for it.
   */
  lemma UnparsedMetricIsNaNThenZero(f: Frame, parse: string -> Option<real>, i: nat, c: string, s: string)
    requires i < |f.rows| && c in NumericColumns
    requires CellAt(f.rows[i], c) == Str(s) && parse(s).None?
    ensures ValidateFrame(f, parse)[i].metrics[c].None?
    ensures Filled(ValidateFrame(f, parse), c)[i] == 0.0
  {
    var rows := ValidateFrame(f, parse);
    assert rows[i] == ValidateRow(f.columns, f.rows[i], parse);
    assert c !in BooleanColumns;
  }

  /** A missing numeric cell counts as 0 before scaling. */
  lemma MissingCountsAsZero(rows: seq<ValidRow>, col: string, i: nat)
    requires i < |rows| && col in NumericColumns
    requires rows[i].metrics.Keys == set c | c in NumericColumns
    requires rows[i].flags.Keys == set c | c in BooleanColumns
    requires rows[i].metrics[col].None?
    ensures Filled(rows, col)[i] == 0.0
  {
  }

  /** A numeric cell that is present passes `fillna(0)` unchanged. */
  lemma PresentMetricIsKept(rows: seq<ValidRow>, col: string, i: nat, x: real)
    requires i < |rows| && col in NumericColumns
    requires rows[i].metrics.Keys == set c | c in NumericColumns
    requires rows[i].flags.Keys == set c | c in BooleanColumns
    requires rows[i].metrics[col] == Some(x)
    ensures Filled(rows, col)[i] == x
  {
  }

  /**
   * The boolean columns after validation hold 0 or 1 and the second cast
   * leaves them so: the filled column is the validated flags themselves.
   */
  lemma FlagColumnFilled(rows: seq<ValidRow>, col: string)
    requires col in BooleanColumns
    requires forall i :: 0 <= i < |rows| ==> col in rows[i].flags
    requires forall i :: 0 <= i < |rows| ==> rows[i].flags[col] == 0.0 || rows[i].flags[col] == 1.0
    ensures Filled(rows, col) == seq(|rows|, i requires 0 <= i < |rows| => rows[i].flags[col])
  {
  }

  /** A boolean column that is true in every row normalises to 0 in every row. */
  lemma AllTrueFlagIsZero(rows: seq<ValidRow>, col: string)
    requires col in BooleanColumns
    requires forall i :: 0 <= i < |rows| ==> col in rows[i].flags && rows[i].flags[col] == 1.0
    ensures forall i :: 0 <= i < |rows| ==> PreprocessNumeric(rows)[i][col] == 0.0
  {
    var v := Filled(rows, col);
    assert forall i :: 0 <= i < |v| ==> v[i] == 1.0;
    ConstantColumnIsZero(v);
    NormColumnIsScaled(rows, col);
    forall i | 0 <= i < |rows| ensures PreprocessNumeric(rows)[i][col] == 0.0 {
      assert NormColumn(PreprocessNumeric(rows), col)[i] == MinMaxNormalize(v)[i];
    }
  }
}

=== FILE: store.dfy ===
/**
 * The two-table store that the `predict` handler writes through one
 * connection (backend/main.py): `raw_validated_data` and
 * `processed_features_data`, with uncommitted inserts held until `commit`
 * and dropped by `rollback`. The database engine itself is abstract: ids
 * come from a sequence, and whether the engine refuses a statement is
 * given up front, by statement number, together with its error text.
 */
module Store {
  import opened Wrappers
  import opened Frames
  import opened Validation

  /** A row of `raw_validated_data`: the generated id and the validated values. */
  datatype RawRecord = RawRecord(id: nat, values: ValidRow)

  /** A row of `processed_features_data`, linked to its raw row by `rawId`. */
  datatype ProcessedRecord = ProcessedRecord(rawId: nat, cleanText: string, norms: map<string, real>, bic: Option<Cell>)

  /** The outcome of one statement: done, or the engine's error text. */
  datatype DbResult<T> = Done(value: T) | DbError(message: string)

  /** The statements the store has executed, for stating their order. */
  datatype Statement = InsertRawStmt(id: nat) | InsertProcessedStmt(rawId: nat) | CommitStmt

  /** Each processed row at position `i` belongs to the raw row at position `i`. */
  predicate Paired(raw: seq<RawRecord>, processed: seq<ProcessedRecord>) {
    |raw| == |processed| && forall i :: 0 <= i < |raw| ==> processed[i].rawId == raw[i].id
  }

  predicate IncreasingIds(raw: seq<RawRecord>) {
    forall i, j :: 0 <= i < j < |raw| ==> raw[i].id < raw[j].id
  }

  predicate IdsBelow(raw: seq<RawRecord>, bound: nat) {
    forall i :: 0 <= i < |raw| ==> raw[i].id < bound
  }

  lemma {:induction false} PairedAppend(a: seq<RawRecord>, b: seq<ProcessedRecord>, c: seq<RawRecord>, d: seq<ProcessedRecord>)
    requires Paired(a, b) && Paired(c, d)
    ensures Paired(a + c, b + d)
  {
    forall i | 0 <= i < |a + c| ensures (b + d)[i].rawId == (a + c)[i].id {
      if i >= |a| {
        assert (b + d)[i] == d[i - |a|];
        assert (a + c)[i] == c[i - |a|];
      }
    }
  }

  class Store {
    /** Committed rows of the two tables. */
    var raw: seq<RawRecord>
    var processed: seq<ProcessedRecord>
    /** Rows inserted through the open connection and not yet committed. */
    var pendingRaw: seq<RawRecord>
    var pendingProcessed: seq<ProcessedRecord>
    /** The id sequence of `raw_validated_data`; like a database sequence, a rollback does not rewind it. */
    var nextId: nat
    /** Statements executed so far, and the ones the engine refuses, with their error text. */
    var statements: nat
    const refusals: map<nat, string>
    ghost var log: seq<Statement>
    var connected: bool
    var connections: nat

    ghost predicate Valid()
      reads this
    {
      && IncreasingIds(raw + pendingRaw)
      && IdsBelow(raw + pendingRaw, nextId)
      && (!connected ==> pendingRaw == [] && pendingProcessed == [])
    }

    constructor (refusals: map<nat, string>)
      ensures Valid()
      ensures this.refusals == refusals
      ensures raw == [] && processed == [] && pendingRaw == [] && pendingProcessed == []
      ensures nextId == 1 && statements == 0 && log == [] && !connected && connections == 0
    {
      raw, processed, pendingRaw, pendingProcessed := [], [], [], [];
      nextId, statements, log := 1, 0, [];
      this.refusals := refusals;
      connected, connections := false, 0;
    }

    /** `get_connection()`. */
    method Connect()
      requires Valid() && !connected
      modifies this
      ensures Valid() && connected && connections == old(connections) + 1
      ensures raw == old(raw) && processed == old(processed)
      ensures pendingRaw == [] && pendingProcessed == []
      ensures nextId == old(nextId) && statements == old(statements) && log == old(log)
    {
      connected := true;
      connections := connections + 1;
    }

    /**
     * `INSERT INTO raw_validated_data ... RETURNING id`: on success the
     * row gets the next id of the sequence, which is returned.
     */
    method InsertRaw(values: ValidRow) returns (r: DbResult<nat>)
      requires Valid() && connected
      modifies this
      ensures Valid() && connected && connections == old(connections)
      ensures statements == old(statements) + 1
      ensures raw == old(raw) && processed == old(processed) && pendingProcessed == old(pendingProcessed)
      ensures old(statements) in refusals ==>
        r == DbError(refusals[old(statements)]) && pendingRaw == old(pendingRaw) && nextId == old(nextId) && log == old(log)
      ensures old(statements) !in refusals ==>
        && r == Done(old(nextId))
        && pendingRaw == old(pendingRaw) + [RawRecord(old(nextId), values)]
        && nextId == old(nextId) + 1
        && log == old(log) + [InsertRawStmt(old(nextId))]
    {
      if statements in refusals {
        r := DbError(refusals[statements]);
      } else {
        r := Done(nextId);
        ghost var before := raw + pendingRaw;
        pendingRaw := pendingRaw + [RawRecord(nextId, values)];
        assert raw + pendingRaw == before + [RawRecord(nextId, values)];
        log := log + [InsertRawStmt(nextId)];
        nextId := nextId + 1;
      }
      statements := statements + 1;
    }

    /** `INSERT INTO processed_features_data ...`. */
    method InsertProcessed(rec: ProcessedRecord) returns (r: DbResult<()>)
      requires Valid() && connected
      modifies this
      ensures Valid() && connected && connections == old(connections)
      ensures statements == old(statements) + 1 && nextId == old(nextId)
      ensures raw == old(raw) && processed == old(processed) && pendingRaw == old(pendingRaw)
      ensures old(statements) in refusals ==>
        r == DbError(refusals[old(statements)]) && pendingProcessed == old(pendingProcessed) && log == old(log)
      ensures old(statements) !in refusals ==>
        && r == Done(())
        && pendingProcessed == old(pendingProcessed) + [rec]
        && log == old(log) + [InsertProcessedStmt(rec.rawId)]
    {
      if statements in refusals {
        r := DbError(refusals[statements]);
      } else {
        r := Done(());
        pendingProcessed := pendingProcessed + [rec];
        log := log + [InsertProcessedStmt(rec.rawId)];
      }
      statements := statements + 1;
    }

    /** `conn.commit()`: on success every pending row becomes committed, in insertion order. */
    method Commit() returns (r: DbResult<()>)
      requires Valid() && connected
      modifies this
      ensures Valid() && connected && connections == old(connections)
      ensures statements == old(statements) + 1 && nextId == old(nextId)
      ensures old(statements) in refusals ==>
        && r == DbError(refusals[old(statements)])
        && raw == old(raw) && processed == old(processed)
        && pendingRaw == old(pendingRaw) && pendingProcessed == old(pendingProcessed)
        && log == old(log)
      ensures old(statements) !in refusals ==>
        && r == Done(())
        && raw == old(raw) + old(pendingRaw) && processed == old(processed) + old(pendingProcessed)
        && pendingRaw == [] && pendingProcessed == []
        && log == old(log) + [CommitStmt]
    {
      if statements in refusals {
        r := DbError(refusals[statements]);
      } else {
        r := Done(());
        raw, processed := raw + pendingRaw, processed + pendingProcessed;
        pendingRaw, pendingProcessed := [], [];
        log := log + [CommitStmt];
      }
      statements := statements + 1;
    }

    /** `conn.rollback()`: the pending rows are dropped; the id sequence keeps its position. */
    method Rollback()
      requires Valid() && connected
      modifies this
      ensures Valid() && connected && connections == old(connections)
      ensures raw == old(raw) && processed == old(processed) && pendingRaw == [] && pendingProcessed == []
      ensures nextId == old(nextId) && statements == old(statements) && log == old(log)
    {
      ghost var before := raw + pendingRaw;
      assert forall i :: 0 <= i < |raw| ==> raw[i] == before[i];
      pendingRaw, pendingProcessed := [], [];
      assert raw + pendingRaw == raw;
    }

    /** `cur.close(); conn.close()`, reached only with nothing pending. */
    method Close()
      requires Valid() && connected && pendingRaw == [] && pendingProcessed == []
      modifies this
      ensures Valid() && !connected && connections == old(connections)
      ensures raw == old(raw) && processed == old(processed) && pendingRaw == [] && pendingProcessed == []
      ensures nextId == old(nextId) && statements == old(statements) && log == old(log)
    {
      connected := false;
    }
  }
}

=== FILE: text_cleaning.dfy ===
/**
 * The text canonicalisation of `clean_text` (backend/main.py): lowercase,
 * URL placeholder, digit and punctuation removal, whitespace collapse and
 * stop-word removal. Characters are restricted to ASCII classes.
 */
module TextCleaning {
  import opened Wrappers

  /** The ASCII characters for which Python's `str.isspace()` holds (also `\s` in `re`). */
  predicate IsSpace(c: char) {
    9 <= c as int <= 13 || 28 <= c as int <= 32
  }

  /** `\d`, restricted to ASCII. */
  predicate IsDigit(c: char) {
    '0' <= c <= '9'
  }

  /** Membership in Python's `string.punctuation` (the 32 ASCII punctuation characters). */
  predicate IsPunct(c: char) {
    33 <= c as int <= 47 || 58 <= c as int <= 64 || 91 <= c as int <= 96 || 123 <= c as int <= 126
  }

  predicate IsUpper(c: char) {
    'A' <= c <= 'Z'
  }

  function LowerChar(c: char): char {
    if IsUpper(c) then (c as int + 32) as char else c
  }

  /** `str.lower()` on ASCII text. */
  function Lower(s: string): (r: string)
    ensures |r| == |s|
    ensures forall i :: 0 <= i < |s| ==> r[i] == LowerChar(s[i])
    ensures forall c :: c in r ==> !IsUpper(c)
  {
    seq(|s|, i requires 0 <= i < |s| => LowerChar(s[i]))
  }

  /** The replacement text for each URL-like run. */
  const UrlPlaceholder: string := "<URL>"

  /** Length of the longest prefix of `s` that contains no whitespace. */
  function NonSpaceRun(s: string): (n: nat)
    ensures n <= |s|
    ensures forall i :: 0 <= i < n ==> !IsSpace(s[i])
    ensures n == |s| || IsSpace(s[n])
  {
    if |s| == 0 || IsSpace(s[0]) then 0 else 1 + NonSpaceRun(s[1..])
  }

  /** `http` followed by a non-space character starts the text. */
  predicate HttpStart(s: string) {
    |s| > 4 && s[..4] == "http" && !IsSpace(s[4])
  }

  /** `www` followed by a non-space character starts the text. */
  predicate WwwStart(s: string) {
    |s| > 3 && s[..3] == "www" && !IsSpace(s[3])
  }

  /**
   * Length of the match of `http\S+|www\S+` anchored at the start of `s`,
   * or 0 when the pattern does not match there. A match covers the prefix
   * and at least one more character, and runs up to the next whitespace.
   */
  function UrlMatch(s: string): (n: nat)
    ensures n <= |s|
    ensures n > 0 <==> HttpStart(s) || WwwStart(s)
    ensures HttpStart(s) ==> n > 4
    ensures WwwStart(s) ==> n > 3
    ensures n > 0 ==> s[0] == 'h' || s[0] == 'w'
    ensures forall i :: 0 <= i < n ==> !IsSpace(s[i])
    ensures n == 0 || n == |s| || IsSpace(s[n])
  {
    if HttpStart(s) then
      assert forall i :: 0 <= i < 4 ==> s[i] == s[..4][i];
      assert forall i :: 4 <= i < |s| ==> s[i] == s[4..][i - 4];
      4 + NonSpaceRun(s[4..])
    else if WwwStart(s) then
      assert forall i :: 0 <= i < 3 ==> s[i] == s[..3][i];
      assert forall i :: 3 <= i < |s| ==> s[i] == s[3..][i - 3];
      3 + NonSpaceRun(s[3..])
    else 0
  }

  /** No match of the URL pattern starts anywhere in `s`. */
  predicate UrlFree(s: string) {
    forall i :: 0 <= i < |s| ==> UrlMatch(s[i..]) == 0
  }

  lemma UrlFreeTail(s: string)
    requires |s| > 0
    ensures UrlFree(s) ==> UrlFree(s[1..])
  {
    if UrlFree(s) {
      forall i | 0 <= i < |s| - 1 ensures UrlMatch(s[1..][i..]) == 0 {
        assert s[1..][i..] == s[i + 1..];
      }
    }
  }

  /**
   * `re.sub(r"http\S+|www\S+", "<URL>", s)`: scanning left to right, each
   * match is replaced by the placeholder and scanning resumes after it.
   * Text in which no match starts is returned as it is.
   */
  function ReplaceUrls(s: string): (r: string)
    ensures forall c :: c in r ==> c in s || c in UrlPlaceholder
    ensures UrlFree(s) ==> r == s
    decreases |s|
  {
    if |s| == 0 then ""
    else
      var n := UrlMatch(s);
      if n > 0 then
        assert s[0..] == s;
        UrlPlaceholder + ReplaceUrls(s[n..])
      else
        UrlFreeTail(s);
        [s[0]] + ReplaceUrls(s[1..])
  }

  /** Removes every character for which `drop` holds, keeping the order of the others. */
  function Strip(s: string, drop: char -> bool): (r: string)
    ensures forall c :: c in r <==> c in s && !drop(c)
    ensures |r| <= |s|
  {
    if |s| == 0 then ""
    else if drop(s[0]) then Strip(s[1..], drop)
    else [s[0]] + Strip(s[1..], drop)
  }

  /** `re.sub(r"\d+", "", s)`: every digit goes, every other character stays. */
  function RemoveDigits(s: string): (r: string)
    ensures forall c :: c in r <==> c in s && !IsDigit(c)
  {
    Strip(s, IsDigit)
  }

  /** `s.translate(str.maketrans('', '', string.punctuation))`: every punctuation character goes, every other stays. */
  function RemovePunctuation(s: string): (r: string)
    ensures forall c :: c in r <==> c in s && !IsPunct(c)
  {
    Strip(s, IsPunct)
  }

  /** A token as `str.split()` yields it: non-empty and free of whitespace. */
  predicate IsWord(t: string) {
    |t| > 0 && forall i :: 0 <= i < |t| ==> !IsSpace(t[i])
  }

  /** The tokens written one after another, with nothing between them. */
  function Concat(toks: seq<string>): string {
    if |toks| == 0 then "" else toks[0] + Concat(toks[1..])
  }

  /** `str.split()` with no separator: the maximal whitespace-free runs, in order. */
  function Split(s: string): (toks: seq<string>)
    ensures forall t :: t in toks ==> IsWord(t)
    ensures forall t, c :: t in toks && c in t ==> c in s
    decreases |s|
  {
    if |s| == 0 then []
    else if IsSpace(s[0]) then Split(s[1..])
    else
      var n := NonSpaceRun(s);
      [s[..n]] + Split(s[n..])
  }

  /**
   * The tokens of `str.split()`, written one after another, are exactly
   * the text with its whitespace removed: every other character lands in
   * a token, in order.
   */
  lemma {:induction false} SplitKeepsText(s: string)
    ensures Concat(Split(s)) == Strip(s, IsSpace)
    decreases |s|
  {
    if |s| > 0 {
      if IsSpace(s[0]) {
        SplitKeepsText(s[1..]);
      } else {
        var n := NonSpaceRun(s);
        var rest := Split(s[n..]);
        SplitKeepsText(s[n..]);
        StripKeepsPrefix(s, n, IsSpace);
        assert ([s[..n]] + rest)[1..] == rest;
      }
    }
  }

  /** `' '.join(toks)`. */
  function Join(toks: seq<string>): (s: string)
    ensures forall c :: c in s ==> c == ' ' || exists t :: t in toks && c in t
  {
    if |toks| == 0 then ""
    else if |toks| == 1 then toks[0]
    else toks[0] + " " + Join(toks[1..])
  }

  /** The tokens not in the stop-word set, in order. */
  function KeepNonStop(toks: seq<string>, stop: set<string>): (r: seq<string>)
    ensures forall t :: t in r <==> t in toks && t !in stop
  {
    if |toks| == 0 then []
    else if toks[0] in stop then KeepNonStop(toks[1..], stop)
    else [toks[0]] + KeepNonStop(toks[1..], stop)
  }

  /** Filtering works token by token: a list filters as its parts do, a single token stays exactly when it is not a stop-word. */
  lemma {:induction false} KeepNonStopAppend(a: seq<string>, b: seq<string>, stop: set<string>)
    ensures KeepNonStop(a + b, stop) == KeepNonStop(a, stop) + KeepNonStop(b, stop)
    decreases |a|
  {
    if |a| == 0 {
      assert a + b == b;
    } else {
      assert (a + b)[0] == a[0];
      assert (a + b)[1..] == a[1..] + b;
      KeepNonStopAppend(a[1..], b, stop);
    }
  }

  /** A single token is kept exactly when it is not a stop-word. */
  lemma KeepNonStopOne(t: string, stop: set<string>)
    ensures KeepNonStop([t], stop) == if t in stop then [] else [t]
  {
    assert [t][1..] == [];
  }

  /**
   * gensim's `remove_stopwords(s)` with the stop-word list as a parameter:
   * the result is single-spaced and its tokens are the non-stop tokens of
   * `s`, in order.
   */
  function RemoveStopwords(s: string, stop: set<string>): (r: string)
    ensures Split(r) == KeepNonStop(Split(s), stop)
    ensures SingleSpaced(r)
  {
    var kept := KeepNonStop(Split(s), stop);
    SplitJoin(kept);
    JoinSingleSpaced(kept);
    Join(kept)
  }

  /** `clean_text(text)`; `None` stands for a missing (NaN) value. */
  function CleanText(text: Option<string>, stop: set<string>): string {
    match text
    case None => ""
    case Some(t) =>
      var collapsed := Join(Split(RemovePunctuation(RemoveDigits(ReplaceUrls(Lower(t))))));
      RemoveStopwords(collapsed, stop)
  }

  /** Whitespace is single ASCII spaces between tokens, never at either end. */
  predicate SingleSpaced(s: string) {
    (|s| > 0 ==> !IsSpace(s[0]) && !IsSpace(s[|s| - 1])) &&
    forall i :: 0 <= i < |s| && IsSpace(s[i]) ==> s[i] == ' ' && i + 1 < |s| && !IsSpace(s[i + 1])
  }

  /** Stripping distributes over concatenation. */
  lemma {:induction false} StripAppend(x: string, y: string, drop: char -> bool)
    ensures Strip(x + y, drop) == Strip(x, drop) + Strip(y, drop)
    decreases |x|
  {
    if |x| == 0 {
      assert x + y == y;
    } else {
      assert (x + y)[0] == x[0];
      assert (x + y)[1..] == x[1..] + y;
      StripAppend(x[1..], y, drop);
    }
  }

  /** Text with nothing to drop is kept as it is. */
  lemma {:induction false} StripNothing(x: string, drop: char -> bool)
    requires forall i :: 0 <= i < |x| ==> !drop(x[i])
    ensures Strip(x, drop) == x
    decreases |x|
  {
    if |x| > 0 {
      assert forall i :: 0 <= i < |x| - 1 ==> x[1..][i] == x[i + 1];
      StripNothing(x[1..], drop);
      assert x == [x[0]] + x[1..];
    }
  }

  /** A prefix with nothing to drop is kept as it is, ahead of the stripped rest. */
  lemma {:induction false} StripKeepsPrefix(s: string, n: nat, drop: char -> bool)
    requires n <= |s|
    requires forall i :: 0 <= i < n ==> !drop(s[i])
    ensures Strip(s, drop) == s[..n] + Strip(s[n..], drop)
  {
    var head, tail := s[..n], s[n..];
    assert forall i :: 0 <= i < |head| ==> head[i] == s[i];
    calc {
      Strip(s, drop);
      { assert s == head + tail; }
      Strip(head + tail, drop);
      { StripAppend(head, tail, drop); }
      Strip(head, drop) + Strip(tail, drop);
      { StripNothing(head, drop); }
      head + Strip(tail, drop);
    }
  }

  /** Text after the first whitespace does not change the leading non-space run. */
  lemma {:induction false} NonSpaceRunExtends(x: string, rest: string)
    requires rest == [] || IsSpace(rest[0])
    ensures NonSpaceRun(x + rest) == NonSpaceRun(x)
    decreases |x|
  {
    if |x| == 0 {
      assert x + rest == rest;
    } else if !IsSpace(x[0]) {
      assert (x + rest)[1..] == x[1..] + rest;
      NonSpaceRunExtends(x[1..], rest);
    }
  }

  /**
   * Any whitespace character splits: splitting two texts joined by one
   * whitespace character gives the tokens of each, in order.
   */
  lemma {:induction false} SplitAroundWhitespace(x: string, c: char, y: string)
    requires IsSpace(c)
    ensures Split(x + [c] + y) == Split(x) + Split(y)
    decreases |x|
  {
    var s := x + [c] + y;
    if |x| == 0 {
      assert s[1..] == y;
    } else if IsSpace(x[0]) {
      assert s[1..] == x[1..] + [c] + y;
      SplitAroundWhitespace(x[1..], c, y);
    } else {
      var m := NonSpaceRun(x);
      assert s == x + ([c] + y);
      NonSpaceRunExtends(x, [c] + y);
      assert s[..m] == x[..m];
      assert s[m..] == x[m..] + [c] + y;
      SplitAroundWhitespace(x[m..], c, y);
    }
  }

  lemma {:induction false} NonSpaceRunOfWord(w: string, rest: string)
    requires IsWord(w)
    requires rest == [] || IsSpace(rest[0])
    ensures NonSpaceRun(w + rest) == |w|
    decreases |w|
  {
    if |w| > 1 {
      assert (w + rest)[1..] == w[1..] + rest;
      NonSpaceRunOfWord(w[1..], rest);
    } else {
      assert (w + rest)[1..] == rest;
    }
  }

  /** Splitting a single-space join of words gives the words back. */
  lemma {:induction false} SplitJoin(toks: seq<string>)
    requires forall t :: t in toks ==> IsWord(t)
    ensures Split(Join(toks)) == toks
  {
    if |toks| == 0 {
    } else if |toks| == 1 {
      var w := toks[0];
      NonSpaceRunOfWord(w, []);
      assert w + [] == w;
      assert w[|w|..] == [];
    } else {
      var w, rest := toks[0], Join(toks[1..]);
      var s := w + " " + rest;
      assert s == w + (" " + rest);
      NonSpaceRunOfWord(w, " " + rest);
      assert s[..|w|] == w;
      assert s[|w|..] == " " + rest;
      assert (" " + rest)[1..] == rest;
      SplitJoin(toks[1..]);
      assert toks == [w] + toks[1..];
    }
  }

  /** A single-space join of words is single-spaced, and empty only when there are no words. */
  lemma {:induction false} JoinSingleSpaced(toks: seq<string>)
    requires forall t :: t in toks ==> IsWord(t)
    ensures SingleSpaced(Join(toks))
    ensures |Join(toks)| == 0 <==> |toks| == 0
  {
    if |toks| == 1 {
      assert IsWord(toks[0]);
    } else if |toks| >= 2 {
      var w, rest := toks[0], Join(toks[1..]);
      assert IsWord(w);
      JoinSingleSpaced(toks[1..]);
      var s := w + " " + rest;
      assert s[0] == w[0];
      assert s[|s| - 1] == rest[|rest| - 1];
      forall i | 0 <= i < |s| && IsSpace(s[i])
        ensures s[i] == ' ' && i + 1 < |s| && !IsSpace(s[i + 1])
      {
        if i > |w| {
          assert s[i] == rest[i - |w| - 1];
          assert s[i + 1] == rest[i - |w|];
        } else if i == |w| {
          assert s[i + 1] == rest[0];
        }
      }
    }
  }

  /**
   * A whitespace-delimited word that starts with `http` or `www` (and has a
   * character after the prefix) is replaced as a whole by one placeholder:
   * the match runs up to the next whitespace.
   */
  lemma ReplaceUrlsWord(w: string, rest: string)
    requires IsWord(w)
    requires (|w| > 4 && w[..4] == "http") || (|w| > 3 && w[..3] == "www")
    requires rest == [] || IsSpace(rest[0])
    ensures ReplaceUrls(w + rest) == UrlPlaceholder + ReplaceUrls(rest)
  {
    var s := w + rest;
    UrlMatchOfWord(w, rest);
    assert s[|w|..] == rest;
  }

  /** The URL pattern matched at the start of such a word covers exactly the word. */
  lemma UrlMatchOfWord(w: string, rest: string)
    requires IsWord(w)
    requires (|w| > 4 && w[..4] == "http") || (|w| > 3 && w[..3] == "www")
    requires rest == [] || IsSpace(rest[0])
    ensures UrlMatch(w + rest) == |w|
  {
    var s := w + rest;
    if |w| > 4 && w[..4] == "http" {
      assert s[..4] == w[..4];
      assert s[4..] == w[4..] + rest;
      NonSpaceRunOfWord(w[4..], rest);
    } else {
      assert s[..3] == w[..3];
      assert s[3..] == w[3..] + rest;
      NonSpaceRunOfWord(w[3..], rest);
    }
  }

  /** A non-space run that starts before a whitespace character ends there, whatever follows. */
  lemma {:induction false} NonSpaceRunBeforeSpace(x: string, y: string)
    requires |x| > 0 && IsSpace(x[|x| - 1])
    ensures NonSpaceRun(x + y) == NonSpaceRun(x)
    decreases |x|
  {
    if !IsSpace(x[0]) {
      assert (x + y)[1..] == x[1..] + y;
      NonSpaceRunBeforeSpace(x[1..], y);
    }
  }

  /** Text after a whitespace character does not change the match at the start. */
  lemma UrlMatchAppend(x: string, y: string)
    requires |x| > 0 && IsSpace(x[|x| - 1])
    ensures UrlMatch(x + y) == UrlMatch(x)
  {
    var s := x + y;
    if |x| > 4 {
      assert s[..4] == x[..4] && s[4] == x[4];
      assert s[4..] == x[4..] + y;
      NonSpaceRunBeforeSpace(x[4..], y);
    } else {
      assert s[|x| - 1] == x[|x| - 1];
      assert !HttpStart(s);
    }
    if |x| > 3 {
      assert s[..3] == x[..3] && s[3] == x[3];
      assert s[3..] == x[3..] + y;
      NonSpaceRunBeforeSpace(x[3..], y);
    } else {
      assert s[|x| - 1] == x[|x| - 1];
      assert !WwwStart(s);
    }
  }

  /** The step of `ReplaceUrls` at a match, when the match ends inside `x`. */
  lemma ReplaceUrlsMatchStep(x: string, y: string, n: nat)
    requires 0 < n < |x| && n == UrlMatch(x) == UrlMatch(x + y)
    ensures ReplaceUrls(x + y) == UrlPlaceholder + ReplaceUrls(x[n..] + y)
    ensures ReplaceUrls(x) == UrlPlaceholder + ReplaceUrls(x[n..])
  {
    assert (x + y)[n..] == x[n..] + y;
  }

  /** The step of `ReplaceUrls` where no match starts: the first character is kept. */
  lemma ReplaceUrlsKeepStep(x: string, y: string)
    requires 0 < |x| && UrlMatch(x) == UrlMatch(x + y) == 0
    ensures ReplaceUrls(x + y) == [x[0]] + ReplaceUrls(x[1..] + y)
    ensures ReplaceUrls(x) == [x[0]] + ReplaceUrls(x[1..])
  {
    assert (x + y)[0] == x[0];
    assert (x + y)[1..] == x[1..] + y;
  }

  /** Concatenation of sequences is associative. */
  lemma AppendAssoc<T>(a: seq<T>, b: seq<T>, c: seq<T>)
    ensures a + b + c == a + (b + c)
  {
  }

  /** Rewriting a head-then-rest result whose rest splits in two. */
  lemma RegroupAppend<T>(whole: seq<T>, head: seq<T>, rest: seq<T>, left: seq<T>, right: seq<T>)
    requires whole == head + rest && rest == left + right
    ensures whole == (head + left) + right
  {
  }

  /**
   * URL substitution works word by word: text that ends in whitespace is
   * substituted on its own, and what follows is substituted on its own.
   */
  lemma {:induction false} ReplaceUrlsAppend(x: string, y: string)
    requires |x| == 0 || IsSpace(x[|x| - 1])
    ensures ReplaceUrls(x + y) == ReplaceUrls(x) + ReplaceUrls(y)
    decreases |x|
  {
    if |x| == 0 {
      assert x + y == y;
    } else {
      UrlMatchAppend(x, y);
      var n := UrlMatch(x);
      if n > 0 {
        assert n < |x|;
        ReplaceUrlsMatchStep(x, y, n);
        assert ReplaceUrls(x[n..] + y) == ReplaceUrls(x[n..]) + ReplaceUrls(y) by {
          ReplaceUrlsAppend(x[n..], y);
        }
        RegroupAppend(ReplaceUrls(x + y), UrlPlaceholder, ReplaceUrls(x[n..] + y), ReplaceUrls(x[n..]), ReplaceUrls(y));
      } else {
        ReplaceUrlsKeepStep(x, y);
        assert ReplaceUrls(x[1..] + y) == ReplaceUrls(x[1..]) + ReplaceUrls(y) by {
          ReplaceUrlsAppend(x[1..], y);
        }
        RegroupAppend(ReplaceUrls(x + y), [x[0]], ReplaceUrls(x[1..] + y), ReplaceUrls(x[1..]), ReplaceUrls(y));
      }
    }
  }

  /** Where no match starts, the first character is kept and scanning moves on by one. */
  lemma ReplaceUrlsKeepOne(s: string)
    requires |s| > 0 && UrlMatch(s) == 0
    ensures ReplaceUrls(s) == [s[0]] + ReplaceUrls(s[1..])
  {
  }

  /** No match starts at any of the first `k` positions of `s`. */
  predicate NoMatchIn(s: string, k: nat)
    requires k <= |s|
    decreases k
  {
    k == 0 || (UrlMatch(s) == 0 && NoMatchIn(s[1..], k - 1))
  }

  lemma {:induction false} NoMatchInFromPositions(s: string, k: nat)
    requires k <= |s|
    requires forall i :: 0 <= i < k ==> UrlMatch(s[i..]) == 0
    ensures NoMatchIn(s, k)
    decreases k
  {
    if k > 0 {
      assert s[0..] == s;
      forall i | 0 <= i < k - 1 ensures UrlMatch(s[1..][i..]) == 0 {
        assert s[1..][i..] == s[i + 1..];
      }
      NoMatchInFromPositions(s[1..], k - 1);
    }
  }

  /** Putting back the first element of `s` in front of a split of `s[1..]`. */
  lemma PrependShift<T>(s: seq<T>, k: nat, whole: seq<T>, rest: seq<T>, right: seq<T>)
    requires 0 < k <= |s|
    requires whole == [s[0]] + rest && rest == s[1..][..k - 1] + right
    ensures whole == s[..k] + right
  {
    assert [s[0]] + s[1..][..k - 1] == s[..k];
  }

  lemma {:induction false} ReplaceUrlsSkip(s: string, k: nat)
    requires k <= |s| && NoMatchIn(s, k)
    ensures ReplaceUrls(s) == s[..k] + ReplaceUrls(s[k..])
    decreases k
  {
    if k == 0 {
      assert s[..0] + s[0..] == s;
    } else {
      var t := s[1..];
      assert ReplaceUrls(s) == [s[0]] + ReplaceUrls(t) by { ReplaceUrlsKeepOne(s); }
      assert ReplaceUrls(t) == t[..k - 1] + ReplaceUrls(s[k..]) by {
        ReplaceUrlsSkip(t, k - 1);
        assert t[k - 1..] == s[k..];
      }
      PrependShift(s, k, ReplaceUrls(s), ReplaceUrls(t), ReplaceUrls(s[k..]));
    }
  }

  /**
   * The scan of `re.sub` is leftmost: text in which no match starts is
   * copied as it is, and substitution resumes at the first position where
   * one does, even in the middle of a word. With the match case of
   * `ReplaceUrls` this fixes the result on every input.
   */
  lemma ReplaceUrlsKeepsPrefix(s: string, k: nat)
    requires k <= |s|
    requires forall i :: 0 <= i < k ==> UrlMatch(s[i..]) == 0
    ensures ReplaceUrls(s) == s[..k] + ReplaceUrls(s[k..])
  {
    NoMatchInFromPositions(s, k);
    ReplaceUrlsSkip(s, k);
  }

  /**
   * Every whitespace-delimited word that starts with `http` or `www` (and
   * has a character after the prefix) becomes one placeholder, wherever it
   * stands; the text around it is substituted on its own.
   */
  lemma ReplaceUrlsWordAnywhere(x: string, w: string, rest: string)
    requires |x| == 0 || IsSpace(x[|x| - 1])
    requires IsWord(w)
    requires (|w| > 4 && w[..4] == "http") || (|w| > 3 && w[..3] == "www")
    requires rest == [] || IsSpace(rest[0])
    ensures ReplaceUrls(x + w + rest) == ReplaceUrls(x) + UrlPlaceholder + ReplaceUrls(rest)
  {
    var tail := w + rest;
    assert ReplaceUrls(tail) == UrlPlaceholder + ReplaceUrls(rest) by {
      ReplaceUrlsWord(w, rest);
    }
    assert ReplaceUrls(x + tail) == ReplaceUrls(x) + ReplaceUrls(tail) by {
      ReplaceUrlsAppend(x, tail);
    }
    AppendAssoc(x, w, rest);
    RegroupAppend(ReplaceUrls(x + tail), ReplaceUrls(x), ReplaceUrls(tail), UrlPlaceholder, ReplaceUrls(rest));
  }

  /**
   * What `clean_text` guarantees of a present value: no digits, no
   * punctuation, no upper-case letter except those of the placeholder
   * (reduced to `URL` by punctuation removal), single spaces between tokens
   * and no token from the stop-word set; and the tokens are exactly the
   * non-stop-words of the intermediate text, in order.
   */
  lemma CleanTextShape(t: string, stop: set<string>)
    ensures var r := CleanText(Some(t), stop);
      var stripped := RemovePunctuation(RemoveDigits(ReplaceUrls(Lower(t))));
      && Split(r) == KeepNonStop(Split(stripped), stop)
      && SingleSpaced(r)
      && (forall w :: w in Split(r) ==> w !in stop)
      && (forall c :: c in r ==> !IsDigit(c) && !IsPunct(c) && (IsUpper(c) ==> c in "URL"))
  {
    var stripped := RemovePunctuation(RemoveDigits(ReplaceUrls(Lower(t))));
    CleanTextIsJoin(t, stop);
    KeptWords(stripped, stop);
    CleanTextChars(t, stop);
  }

  /** The characters of the cleaned text: no digit, no punctuation, upper case only from `URL`. */
  lemma CleanTextChars(t: string, stop: set<string>)
    ensures forall c :: c in CleanText(Some(t), stop) ==> !IsDigit(c) && !IsPunct(c) && (IsUpper(c) ==> c in "URL")
  {
    var stripped := RemovePunctuation(RemoveDigits(ReplaceUrls(Lower(t))));
    CleanTextIsJoin(t, stop);
    KeptChars(stripped, stop);
    StrippedChars(t);
  }

  /** The kept words of a text split back into themselves and join single-spaced. */
  lemma KeptWords(s: string, stop: set<string>)
    ensures var kept := KeepNonStop(Split(s), stop);
      Split(Join(kept)) == kept && SingleSpaced(Join(kept))
  {
    var kept := KeepNonStop(Split(s), stop);
    SplitJoin(kept);
    JoinSingleSpaced(kept);
  }

  /** Every character of the joined kept words is a space or a character of the text. */
  lemma KeptChars(s: string, stop: set<string>)
    ensures forall c :: c in Join(KeepNonStop(Split(s), stop)) ==> c == ' ' || c in s
  {
    forall c | c in Join(KeepNonStop(Split(s), stop)) ensures c == ' ' || c in s {
      KeptChar(s, stop, c);
    }
  }

  /** The cleaned text is the single-space join of the non-stop-words of the stripped text. */
  lemma CleanTextIsJoin(t: string, stop: set<string>)
    ensures CleanText(Some(t), stop) == Join(KeepNonStop(Split(RemovePunctuation(RemoveDigits(ReplaceUrls(Lower(t))))), stop))
  {
    SplitJoin(Split(RemovePunctuation(RemoveDigits(ReplaceUrls(Lower(t))))));
  }

  /** The text before tokenising has no digit, no punctuation and no upper case beyond `URL`. */
  lemma StrippedChars(t: string)
    ensures forall c :: c in RemovePunctuation(RemoveDigits(ReplaceUrls(Lower(t)))) ==>
      !IsDigit(c) && !IsPunct(c) && (IsUpper(c) ==> c in "URL")
  {
    var replaced := ReplaceUrls(Lower(t));
    forall c | c in RemovePunctuation(RemoveDigits(replaced))
      ensures !IsDigit(c) && !IsPunct(c) && (IsUpper(c) ==> c in "URL")
    {
      assert c in replaced;
    }
  }

  /** A non-space character of the joined kept words comes from the text they were split from. */
  lemma KeptChar(s: string, stop: set<string>, c: char)
    requires c in Join(KeepNonStop(Split(s), stop))
    ensures c == ' ' || c in s
  {
  }

  /** A missing value cleans to the empty string. */
  lemma CleanTextMissing(stop: set<string>)
    ensures CleanText(None, stop) == ""
  {
  }
}

=== FILE: validation.dfy ===
/**
 * Column validation and cell coercion of the `predict` handler
 * (backend/main.py): the missing-column list, `pd.to_numeric(...,
 * errors='coerce')` on the numeric columns and `map({True: 1, False: 0})
 * .fillna(0)` on the boolean ones.
 */
module Validation {
  import opened Wrappers
  import opened Frames

  /** Position of the first occurrence of `x` in `s`, or `|s|` when absent. */
  function IndexOf(s: seq<string>, x: string): (k: nat)
    ensures k <= |s|
    ensures k < |s| <==> x in s
    ensures k < |s| ==> s[k] == x && forall j :: 0 <= j < k ==> s[j] != x
  {
    if |s| == 0 then 0
    else if s[0] == x then 0
    else 1 + IndexOf(s[1..], x)
  }

  predicate Distinct(s: seq<string>) {
    forall i, j :: 0 <= i < j < |s| ==> s[i] != s[j]
  }

  /**
   * `[col for col in required if col not in header]`: exactly the required
   * names absent from the header and, when `required` has no repeated
   * name, listed once each in the order of `required`.
   */
  function MissingColumns(required: seq<string>, header: seq<string>): (missing: seq<string>)
    ensures forall c :: c in missing <==> c in required && c !in header
    ensures Distinct(required) ==>
      forall i, j :: 0 <= i < j < |missing| ==> IndexOf(required, missing[i]) < IndexOf(required, missing[j])
  {
    if |required| == 0 then []
    else
      var rest := MissingColumns(required[1..], header);
      if required[0] !in header then [required[0]] + rest else rest
  }

  /** Python's `repr` of a list of plain names: `['a', 'b']`. */
  function ListRepr(names: seq<string>): string {
    "[" + QuotedItems(names) + "]"
  }

  function QuotedItems(names: seq<string>): string {
    if |names| == 0 then ""
    else if |names| == 1 then "'" + names[0] + "'"
    else "'" + names[0] + "', " + QuotedItems(names[1..])
  }

  /** The detail text of the 400 response for a missing-column list. */
  function MissingColumnsDetail(missing: seq<string>): string {
    "Missing columns: " + ListRepr(missing)
  }

  /**
   * `pd.to_numeric(cell, errors='coerce')`: numbers stay, booleans count
   * as 1 and 0, text goes through the reader's float parser `parse`, and
   * anything unparseable becomes NaN (`None`) instead of an error.
   */
  function CoerceNumeric(c: Cell, parse: string -> Option<real>): (v: Option<real>)
    ensures c.Num? ==> v == Some(c.n)
    ensures c.Str? ==> v == parse(c.s)
    ensures c.Missing? || c.Other? ==> v.None?
  {
    match c
    case Num(n) => Some(n)
    case Bool(b) => Some(if b then 1.0 else 0.0)
    case Str(s) => parse(s)
    case Missing => None
    case Other => None
  }

  /** `map({True: 1, False: 0}).fillna(0)`: `True` is 1 and every other cell 0. */
  function CoerceBoolean(c: Cell): (v: real)
    ensures v == 1.0 <==> c == Bool(true)
    ensures v == 0.0 <==> c != Bool(true)
  {
    match c
    case Bool(b) => if b then 1.0 else 0.0
    case _ => 0.0
  }

  /** One row after coercion, as the handler's frame holds it before preprocessing. */
  datatype ValidRow = ValidRow(
    title: Cell, description: Cell, message: Cell,
    metrics: map<string, Option<real>>,  // the six numeric columns; None is NaN
    flags: map<string, real>,            // the two boolean columns, 0 or 1
    bic: Option<Cell>)                   // `row.get("BIC", None)`

  function ValidateRow(header: seq<string>, row: Row, parse: string -> Option<real>): (v: ValidRow)
    ensures v.metrics.Keys == set c | c in NumericColumns
    ensures v.flags.Keys == set c | c in BooleanColumns
    ensures forall c :: c in v.flags ==> v.flags[c] == 0.0 || v.flags[c] == 1.0
    ensures v.bic.None? <==> LabelColumn !in header
  {
    ValidRow(
      CellAt(row, "title"), CellAt(row, "description"), CellAt(row, "BFC_message"),
      map c | c in NumericColumns :: CoerceNumeric(CellAt(row, c), parse),
      map c | c in BooleanColumns :: CoerceBoolean(CellAt(row, c)),
      if LabelColumn in header then Some(CellAt(row, LabelColumn)) else None)
  }

  /**
   * The coercion loops of the handler, column by column over all rows: the
   * row count is kept, every row has the six metrics and the two 0/1
   * flags, and a row's values depend on that row (and the header) alone.
   */
  function ValidateFrame(f: Frame, parse: string -> Option<real>): (rows: seq<ValidRow>)
    ensures |rows| == |f.rows|
    ensures forall i :: 0 <= i < |rows| ==>
      && rows[i].metrics.Keys == (set c | c in NumericColumns)
      && rows[i].flags.Keys == (set c | c in BooleanColumns)
      && (forall c :: c in rows[i].flags ==> rows[i].flags[c] == 0.0 || rows[i].flags[c] == 1.0)
    ensures forall i, j :: 0 <= i < |rows| && 0 <= j < |rows| && f.rows[i] == f.rows[j] ==> rows[i] == rows[j]
  {
    seq(|f.rows|, i requires 0 <= i < |f.rows| => ValidateRow(f.columns, f.rows[i], parse))
  }

  /** The required column names are pairwise distinct, so the missing list never repeats a name. */
  lemma RequiredColumnsDistinct()
    ensures Distinct(RequiredColumns)
  {
  }
}

=== FILE: wrappers.dfy ===
/** Option and error-carrying result types shared by the pipeline modules. */
module Wrappers {
  datatype Option<+T> = None | Some(value: T)

  /** An HTTP error as the web layer reports it: a status code and a detail text. */
  datatype HttpError = HttpError(status: int, detail: string)

  datatype Result<+T> = Ok(value: T) | Err(error: HttpError)
}
